=== FILE: README.md ===
# Planet aggregator core, in Dafny

This project models the core of the Planet feed aggregator library
(`planet/__init__.py`).

A **Channel** is the cached state of one subscribed feed:
- its URL and HTTP negotiation tokens (etag, last-modified);
- a record of feed-level keys (`name`, `updated`, `last_updated`, `next_order`, `hidden`, `filter`, and whatever the feed declares);
- its **news items**, each a record filed under a channel-unique id.

The model covers:
- **Channel.update.** It acts on the HTTP status of a fetch, copies the feed's keys (`update_info`) and reconciles the entries (`update_entries`). Reconciliation:
  - stamps the channel clock;
  - resolves each entry's id;
  - creates or updates its item (`NewsItem.update`, with the date bounded by `get_date`);
  - hides surplus items on a channel's first sight;
  - numbers the created items from the `next_order` counter in reverse feed order;
  - expires items that, by the sort order, should still be in the feed but are not.
- **Channel.items**, `get_name` and `cache_read_entries`, and `NewsItem.get_content`.
- **Planet.channels** and **Planet.items**, the aggregate view. Planet.items applies the planet and channel filters, sorts newest first, caps the item count and keeps a day window.

Records are maps from key to `Value` (a string, a date as seconds, or the cache's NULL). A parsed feed or entry is a `Bag`: its keys in the parser's order, each with the shape of its value. A channel's items are a sequence with unique ids, which fixes the dictionary's enumeration order.

The fetch, the clock, MD5 and regular-expression search are not computed here. They are parameters:
- the parsed fetch result;
- `now`;
- `digest`;
- `search`.

The limit on visible items of a new feed (`Planet.new_feed_items`) is the parameter `n`.

Modules, in dependency order:
- `Wrappers`, `Values` and `Decimal`: option and result types, records and bags, and decimal strings.
- `Ordering`: sort keys, sorting and reversal.
- `Fields` and `NewsItems`: key copying, and the item record.
- `Channels`: the channel and its item views.
- The five steps of `update_entries`: `Identity`, `Absorption`, `Orders`, `Expiry` and `Reconcile`.
- `Fetch`: Channel.update.
- `Planets`: the aggregate view.

The docstring of `Planet.items` (`planet/__init__.py:112-113`) counts the `max_days` window in days, but the code measures a day as 84600 seconds (`planet/__init__.py:165`). The model makes the day length a parameter of `Planets.Items`:
- `WRITTEN_DAY` (84600) gives the code's behaviour;
- `DAY` (86400) gives the one the docstring describes (see Findings).

## Model

| member | source | states |
|---|---|---|
| Decimal.ParseShow | planet/__init__.py:437 | reading back a counter written as `str(n)` gives `n`: the round trip behind `int(self.next_order) + 1` |
| Decimal.ShowParse | planet/__init__.py:437 | a decimal string without leading zeros is exactly how its value is written back |
| Ordering.Sort | planet/__init__.py:268-270 | the result is an ascending permutation of the input |
| Ordering.ReverseAscending | planet/__init__.py:268-270 | reversing an ascending sort gives a newest-first listing |
| Ordering.DescendingAll | planet/__init__.py:442 | in a newest-first listing, every later element's key is at most every earlier one's |
| Ordering.TextLeLex | planet/__init__.py:151-155 | Python 2 string comparison: a string is at most another exactly when it is a prefix of it or is smaller at the first position where they differ |
| Ordering.ValueLeRules | planet/__init__.py:266-270 | in the sort tuples `None` comes before any string, and strings compare lexicographically |
| Ordering.OrdersCompareAsText | planet/__init__.py:266-270 | `order` values compare as text, so an item numbered "10" sorts below one numbered "9" on the same date |
| Channels.ItemsView | planet/__init__.py:261-272 | Channel.items lists exactly the items that are not hidden (all of them with `hidden`), each once, dated, newest first when `sorted`, in dictionary order otherwise |
| Channels.VisibleAppend | planet/__init__.py:261-266 | the hidden filter keeps the items' order: the items listed from a concatenation are those listed from the front followed by those from the back |
| Channels.GetName | planet/__init__.py:452-458 | the name when it is set, else the title when it is set, else the empty string |
| Channels.Load | planet/__init__.py:500-508 | an item's record is the fresh defaults overridden by exactly what the cache holds for its id |
| Channels.CacheReadEntries | planet/__init__.py:278-286 | an item is read for exactly the cache keys that contain no space and are not keys of the channel itself: neither a key of its cached record nor one of url, url_etag and url_modified; ids are unique and each record is loaded from the cache |
| Channels.IndexOf | planet/__init__.py:419-420 | has_item: an id is found exactly when some item is filed under it, and the index found holds that item |
| Fields.Classify | planet/__init__.py:343-356 | the first test that holds decides the kind, each kind exactly: ignored when the key or its `_parsed` form is an ignore key; a raw twin when the bag also has key + `_parsed`; a detail when it ends in `_detail`; a parsed date, stored under its stem, when it ends in `_parsed`; plain otherwise |
| Fields.ItemWrites | planet/__init__.py:512-546 | what one entry key writes: nothing for ignored, twin and detail keys; a `_parsed` key sets its stem to the date, if not None; `source` and `content` as their helpers state; any other key is stored as a string if text, and dropped otherwise |
| Fields.ChannelWrites | planet/__init__.py:343-377 | what one feed key writes: nothing for ignored, twin and detail keys; a `_parsed` key sets its stem to the date, if not None; `image` as ImageWrites states; any other key is stored as a string if text |
| Fields.ImageWrites | planet/__init__.py:357-368 | the feed image's url, link, title, width and height each go to its `image_*` key exactly when the dictionary has it, with its text, and nothing else is written |
| Fields.SourceWrites | planet/__init__.py:526-531 | an entry's source dictionary sets `source_name` to its value and `source_link` to its url, each exactly when present, and writes no other key |
| Fields.ContentWrites | planet/__init__.py:532-537 | an entry's content list sets `content` to the concatenation of its parts' values, and writes no other key |
| Fields.ContentValue | planet/__init__.py:534-536 | the loop appending each part's value in turn to the empty string ends with the concatenation of all the parts |
| Fields.ConcatSnoc | planet/__init__.py:535-536 | one more part appends exactly its value to the concatenation |
| Fields.OverlayFrame | planet/__init__.py:343 | a key no field writes keeps its presence and value through the copying loop |
| Fields.OverlayLastWriter | planet/__init__.py:343 | a key ends with the value the last field writing it gave |
| Fields.UpdateInfo | planet/__init__.py:336-377 | after update_info the channel record holds exactly its old keys and the keys some feed field writes |
| Fields.UpdateFields | planet/__init__.py:510-546 | after the copying loop of NewsItem.update the item record holds exactly its old keys and the keys some entry field writes |
| Fields.UpdateInfoKeeps | planet/__init__.py:336-377 | update_info leaves alone every key no feed field writes |
| Fields.UpdateInfoSets | planet/__init__.py:336-377 | after update_info a key holds what its last writer in the feed wrote |
| Fields.UpdateFieldsSets | planet/__init__.py:510-546 | after the copying loop of NewsItem.update a key holds what its last writer in the entry wrote |
| NewsItems.Fresh | planet/__init__.py:500-507 | a new item has its id, and NULL date, order and content |
| NewsItems.Claim | planet/__init__.py:567-572 | the claim is decided by the first of modified, issued and created the record holds: its time when it holds a date, and no claim otherwise; with none of them there is no claim |
| NewsItems.Bound | planet/__init__.py:574-580 | a claim later than `updated`, earlier than `last_updated`, or missing becomes `updated`; any other claim is kept |
| NewsItems.GetDate | planet/__init__.py:551-583 | a date already set is kept untouched; otherwise a claim within [last_updated, updated] is stored as the date, and `updated` is stored when there is no claim or it lies outside that window; no other key changes |
| NewsItems.Update | planet/__init__.py:510-549 | after NewsItem.update no key is lost, every key but the date holds what copying the entry's fields left there, and the item has a date: the one already set after copying, otherwise the first claimed date bounded by the [last_updated, updated] window that get_date applies (:549, :564-583) |
| NewsItems.DateStaysDate | planet/__init__.py:497-525 | copying an entry never stores a non-date under `date`: the plain key is ignored and `date_parsed` stores a date |
| NewsItems.UpdateKeeps | planet/__init__.py:510-549 | NewsItem.update leaves every other key the entry does not write as it was |
| NewsItems.NoFieldNoWrite | planet/__init__.py:512-546 | an entry without `k` and `k_parsed` never writes `k`, other than the source and content targets |
| NewsItems.ParsedDateUnbounded | planet/__init__.py:522-525 | an entry's `date_parsed` is stored as the item's date even when later than `updated`, since get_date keeps a date already set |
| NewsItems.GetContent | planet/__init__.py:585-591 | content, else tagline, else summary, whichever is first set, else the empty string |
| Identity.ResolveId | planet/__init__.py:403-416 | the id is the entry's id, else its link, else the channel URL + "/" + digest of the title, else of the summary; with none of these the entry is skipped; a present id source that is not text is an error |
| Identity.TitleOnlyId | planet/__init__.py:408-410 | an entry with only a title is filed under the URL, a slash and the title's digest |
| Identity.SeenIds | planet/__init__.py:400-426 | `feed_items` holds the id of every identifiable entry and only such ids, at most one per entry |
| Identity.SeenIdsSnoc | planet/__init__.py:414-426 | each entry appends its resolved id to `feed_items`, even one already there, and an entry without id sources appends nothing |
| Identity.NewIds | planet/__init__.py:419-424 | `new_items` holds exactly the seen ids that were not items before, each once |
| Identity.NewIdsInOrder | planet/__init__.py:419-424 | `new_items` lists the created ids in the order their first entries appear in the feed |
| Absorption.Absorb | planet/__init__.py:402-432 | one loop pass fails exactly when the entry's id cannot be read |
| Absorption.AbsorbAll | planet/__init__.py:402-432 | the entry loop fails exactly when some entry's id cannot be read |
| Absorption.AbsorbAllIds | planet/__init__.py:418-426 | after the loop the items are the old ones followed by the created ones, ids unique; `feed_items` and `new_items` are as Identity defines them |
| Absorption.AbsorbAllGrows | planet/__init__.py:418-425 | the loop loses no item and no key, and keeps every date a date; created items are dated |
| Absorption.AbsorbAllHiding | planet/__init__.py:428-432 | when no entry carries `hidden`, an item is hidden after the loop exactly when it was hidden before or its id sits in `feed_items` past the first-sight limit |
| Absorption.AbsorbAllKeeps | planet/__init__.py:418-426 | a key no entry carries and the loop does not own (such as `order`) keeps its value on old items and its fresh value on created ones |
| Absorption.TouchFacts | planet/__init__.py:418-426 | the loop body appends the id to `feed_items`, creates an item and records it in `new_items` exactly when the id is new, keeps ids unique, and loses no item, key or date |
| Absorption.TouchRecShape | planet/__init__.py:418-432 | the record the loop body leaves is NewsItem.update's result, with `hidden` set to "yes" past the first-sight limit and no other key changed |
| Orders.Counter | planet/__init__.py:437 | the counter is read exactly when `next_order` holds a decimal string |
| Orders.SetOrder | planet/__init__.py:437 | only the item filed under the id gets the new order |
| Orders.Number | planet/__init__.py:434-437 | numbering the k created ids in reverse gives the item under the j-th of them order counter + k - j and changes nothing else in it; every other item is unchanged |
| Orders.AssignOrders | planet/__init__.py:434-437 | failure exactly when items were created and the counter does not parse; the counter ends k higher; created items are numbered counter + k - j; no other item changes |
| Expiry.Scan | planet/__init__.py:442-450 | the expired items are items of the listing that the feed did not deliver |
| Expiry.ScanExact | planet/__init__.py:440-450 | an item is expired exactly when the feed did not deliver it and fewer delivered items than the budget precede it |
| Expiry.Remove | planet/__init__.py:448 | exactly the items filed under an expired id are removed |
| Expiry.Expire | planet/__init__.py:439-450 | the expired items are visible items the feed did not deliver; the kept items are exactly the others, ids unique and still dated |
| Expiry.ExpireExact | planet/__init__.py:439-450 | over the newest-first listing, the i-th visible item is expired exactly when undelivered and fewer delivered items than `feed_items` has precede it |
| Reconcile.Clock | planet/__init__.py:397-398 | the window's `updated` is now; the previous `updated` becomes the lower bound when a date; first sight is a previous NULL |
| Reconcile.Stamp | planet/__init__.py:397-398 | `updated` becomes now and `last_updated` the previous `updated`; no other key changes |
| Reconcile.CounterStamp | planet/__init__.py:397-398 | stamping the clock does not touch the order counter |
| Reconcile.UpdateEntries | planet/__init__.py:379-450 | no entries means no change; otherwise the channel stays well formed, its fetch state is kept and its clock is stamped |
| Reconcile.UpdateEntriesFails | planet/__init__.py:394-437 | update_entries fails exactly when there are entries and an id cannot be read, or an item is created and the counter does not parse |
| Reconcile.UpdateEntriesKeepsSeen | planet/__init__.py:419-450 | every id the feed delivered is an item afterwards: the feed's own items are never expired |
| Reconcile.UpdateEntriesExpired | planet/__init__.py:439-450 | expired items were old, undelivered, not hidden, and are gone; every old item is kept or expired |
| Reconcile.UpdateEntriesHiding | planet/__init__.py:428-432 | an item is hidden afterwards exactly when it was before or sits past the first-sight limit in `feed_items` |
| Reconcile.UpdateEntriesCounter | planet/__init__.py:434-437 | the counter is unchanged if nothing was created, and otherwise k higher |
| Reconcile.UpdateEntriesOrders | planet/__init__.py:418-437 | for entries without an `order` key, an item that was not created keeps the order the channel's item under its id had |
| Reconcile.UpdateEntriesNewOrders | planet/__init__.py:434-437 | with counter `top`, the item under the j-th of the k created ids, in feed order, has order top + k - j |
| Reconcile.UpdateEntriesNumbered | planet/__init__.py:434-437 | orders stay distinct decimal numbers no larger than the counter, and the counter does not go down |
| Fetch.Dispatch | planet/__init__.py:307-323 | the update stops exactly on 304 or a status of 400 and up; a 301 or 302 goes on from the new URL, anything else from the current one |
| Values.NonEmpty | planet/__init__.py:324 | an empty or absent etag is stored as none, and likewise the planet's filter (lines 122-124) is in force only when non-empty: the string is kept exactly when it is present and non-empty |
| Fetch.Refresh | planet/__init__.py:324-332 | a fetch that goes on records the new URL, etag and modified time, keeps the items, and its record is exactly update_info's result for the feed's keys |
| Fetch.Update | planet/__init__.py:298-334 | a stop leaves the channel untouched; a fetch that goes on is exactly the entry reconciliation of the feed's entries on the refreshed channel, which stays well formed with the new fetch state; a feed without entries keeps every item |
| Planets.ListedChannels | planet/__init__.py:80-83 | the listed channels are exactly the subscribed ones that are not hidden (all with `hidden`), in subscription order |
| Planets.ChannelList | planet/__init__.py:78-88 | Planet.channels is a permutation of the listed channels; when `sorted` they ascend by the name get_name reads, so a channel without a name sorts by its title |
| Planets.ChannelPattern | planet/__init__.py:131-134 | a channel's filter applies exactly when it is a non-empty string |
| Planets.AdmitsExactly | planet/__init__.py:129-149 | an item is taken exactly when it is shown and each filter set to a non-empty string, the planet's and the channel's, matches its title or its content |
| Planets.FromChannel | planet/__init__.py:128-151 | a channel contributes exactly its items that are shown and pass both filters |
| Planets.Gather | planet/__init__.py:126-151 | the gathered posts are exactly those some listed channel admits |
| Planets.Ordered | planet/__init__.py:126-156 | the sorted listing is a permutation of the gathered posts, newest first |
| Planets.Cap | planet/__init__.py:158-160 | max_items: no cap at 0, otherwise a prefix as Python's slice bounds it, negative bounds included |
| Planets.Within | planet/__init__.py:163-171 | counts the leading posts newer than the cut-off; the next one is not |
| Planets.DayWindow | planet/__init__.py:162-171 | max_days keeps a prefix of posts newer than the first post's time less the window, and stops at the first post that is not |
| Planets.PrefixFacts | planet/__init__.py:153-173 | any prefix of the listing holds only admitted, dated posts, still newest first |
| Planets.Items | planet/__init__.py:98-173 | Planet.items lists admitted, dated posts: newest first when sorted, at most max_items; with max_days 0 exactly the capped listing, otherwise its prefix of posts newer than the newest post's time less the window, stopping at the first older one |
| Planets.WindowIsFilter | planet/__init__.py:162-171 | on a newest-first listing the day window keeps exactly the posts newer than the cut-off |
| Planets.ItemsFilter | planet/__init__.py:98-173 | sorted and uncapped, a post is listed exactly when admitted and newer than the newest post's time less max_days days |
| Planets.ItemsWithinDays | planet/__init__.py:112-113 | with true days, an admitted post is listed exactly when less than max_days days older than the newest |
| Planets.WrittenWindowTooShort | planet/__init__.py:165 | with the 84600-second day, a post 85000 seconds older than the newest is dropped from a one-day window |

## Left out

- Fetching, parsing (feedparser), logging, and the cache file on disk: the parsed fetch result is an input; the cache contents are a map passed to `Channels.CacheReadEntries`.
- `cache_write`, `cache_clear` and the `_expired` list's later deletion from disk: persistence is I/O. The expired items are returned instead.
- `os.link` of the cache file on a redirect: file-system I/O.
- The clock (`time.gmtime`) and `time.mktime`: dates are integer seconds and `now` is a parameter.
- MD5 and regular-expression search: the parameters `digest` and `search`. Compiling the pattern case-insensitively is part of `search`.
- The order among items whose (date, order) keys tie: the source leaves it to the item objects' comparison. The model keeps a fixed order instead.
- The order of channels whose names tie: for the same reason, the model keeps subscription order.
- Dictionary enumeration order of a channel's items: fixed as the sequence order.
- Channels.Sortable: a view requires every listed item to hold a date. The source reads `item.date` through the `get_date` hook, which fills in a missing date from the item's claim and the channel's update window. Every item `NewsItems.Update` leaves is dated, and `Channels.Valid` carries this between updates; an item read back from the cache without a date is outside the views' preconditions.
- Planets.Dateable: the same requirement for the aggregate view, where the source's `get_date` hook would fill in a missing date in the same way.
- Orders.Counter: Python's `int()` also accepts surrounding whitespace and a sign; the model reads digit strings only. Anything else is an error, as a non-numeric counter is in the source.
- Identity.ResolveId: `cache.utf8` of a value that is not text is an error (`Unreadable`), not an exception. Any partial update the loop made in memory before raising is not modelled, since the error result discards the whole update.
- Fields.ItemWrites: a value the source's `set_as_string` cannot coerce is dropped, where the source logs and skips it.
- Fields.ChannelWrites: the `image` sub-values arrive as text; the `str()` the source applies to the width and height is not modelled.
- Fields.ChannelWrites: an `image` that is not a dictionary writes nothing. The source's `has_key` raises there, outside any handler, and the exception ends the channel's update.
- Fields.ItemWrites: a `source` that is not a dictionary, or a `content` that is not a list of parts, writes nothing. The source raises there outside the handler, which ends the channel's update.
- Absorption.Base: a created item starts from the fresh record. The source's constructor also overlays whatever the cache holds under the id; the model differs only for ids `cache_read_entries` skips, those with a space, equal to a key of the channel's cached record, or one of url, url_etag and url_modified.
- A feed key such as `url_parsed` would overwrite the channel's `url` attribute in the source. The model keeps the fetch state in separate fields that the feed's keys never reach.
- A channel `filter` that is not a string counts as no filter.
- NewsItems.Claim: a claim key holding NULL or a string is read as no claim, so the date falls back to `updated`. The source hands such a value to the cache's `get_as_date`, which is not part of this model, and a plain `modified` string can get there when the entry has no `modified_parsed`.
- Subscribing, unsubscribing, `has_item`/`get_item` as separate calls, iteration, the user agent and the cache directory: plumbing outside the modelled core.

## Findings

| source | as written | input that shows it | evidently intended | confidence | as-written member | corrected member |
|---|---|---|---|---|---|---|
| planet/__init__.py:165 | the max_days cut-off multiplies the day count by 84600 seconds | max_days = 1, newest post at 100000 s, another post at 15000 s (85000 s older, less than a day): it is dropped | one day is 86400 seconds; posts less than max_days days older than the newest are kept | high; not executed | Planets.WrittenWindowTooShort | Planets.ItemsWithinDays |

=== FILE: absorb.dfy ===
/**
 * Steps two and three of Channel.update_entries: the entry loop, which
 * creates or updates the item of every identifiable entry, records the
 * ids it sees, and hides surplus items the first time a channel is seen.
 */
module Absorption {
  import opened Wrappers
  import opened Values
  import Fields
  import NewsItems
  import opened Channels
  import opened Identity

  /** What the entry loop has built so far: the items, the ids of the
      items it created (`new_items`) and the ids it saw (`feed_items`). */
  datatype Pass = Pass(items: seq<Item>, created: seq<string>, seen: seq<string>)

  /** The channel's clock during one update: the new `updated`, the old
      one when it is a date, and whether `last_updated` is None. */
  datatype Window = Window(updated: int, lastUpdated: Option<int>, firstSight: bool)

  /** Whether the entry that brings `feed_items` to `count` ids is hidden:
      only on first sight, only with a non-zero limit, only past it. */
  predicate Hides(w: Window, n: int, count: int)
  {
    w.firstSight && n != 0 && count > n
  }

  /** How an update may change an item: same id, no key lost, a date kept a date. */
  predicate Grows(a: Item, b: Item)
  {
    a.id == b.id && a.rec.Keys <= b.rec.Keys && (Dated(a) ==> Dated(b))
  }

  /** The record's value at `k` is the same in both, absence included. */
  predicate SameAt(a: Record, b: Record, k: string)
  {
    (k in a <==> k in b) && (k in a ==> a[k] == b[k])
  }

  /** No entry carries the key `k` or its parsed form. */
  predicate Lacks(entries: seq<Bag>, k: string)
  {
    forall i, j :: 0 <= i < |entries| && 0 <= j < |entries[i]| ==>
      entries[i][j].key != k && entries[i][j].key != k + Fields.PARSED
  }

  /** Some position of `seen` from `from` on holds `id` and is past the
      first-sight limit. */
  predicate HiddenAt(w: Window, n: int, seen: seq<string>, from: nat, id: string)
  {
    exists q :: from <= q < |seen| && Hides(w, n, q + 1) && seen[q] == id
  }

  /** The record the entry loop updates for `id`: the item's own, or a
      fresh one. */
  function Base(items: seq<Item>, id: string): (rec: Record)
    ensures id !in Ids(items) ==> rec == NewsItems.Fresh(id)
    ensures UniqueIds(items) ==> forall i :: 0 <= i < |items| && items[i].id == id ==> rec == items[i].rec
  {
    var at := IndexOf(items, id);
    if at.Some? then items[at.value].rec else NewsItems.Fresh(id)
  }

  /** The loop body for an entry filed under `id`: update (or create) the
      item, append the id to `feed_items`, hide the item past the
      first-sight limit. */
  function Touch(p: Pass, id: string, entry: Bag, w: Window, n: int): Pass
  {
    var at := IndexOf(p.items, id);
    var rec := TouchRec(p, id, entry, w, n);
    var seen := p.seen + [id];
    if at.Some? then Pass(p.items[at.value := Item(id, rec)], p.created, seen)
    else Pass(p.items + [Item(id, rec)], p.created + [id], seen)
  }

  /** The record the loop body leaves for `id`: the entry copied over the
      base record, and `hidden` set past the first-sight limit. */
  function TouchRec(p: Pass, id: string, entry: Bag, w: Window, n: int): Record
  {
    var updated := NewsItems.Update(Base(p.items, id), entry, w.updated, w.lastUpdated);
    if Hides(w, n, |p.seen| + 1) then updated["hidden" := String("yes")] else updated
  }

  /** The loop body's record for `id` is NewsItem.update of the item's
      record (a fresh one for a new id); past the first-sight limit it
      also gets `hidden` = "yes", and no other key differs. */
  lemma TouchRecShape(p: Pass, id: string, entry: Bag, w: Window, n: int)
    ensures var r := TouchRec(p, id, entry, w, n);
            var u := NewsItems.Update(Base(p.items, id), entry, w.updated, w.lastUpdated);
            && (Hides(w, n, |p.seen| + 1) ==> "hidden" in r && r["hidden"] == String("yes"))
            && (!Hides(w, n, |p.seen| + 1) ==> r == u)
            && (forall k :: k != "hidden" ==> SameAt(r, u, k))
  {
  }

  /** A key the entry does not carry and the loop does not own keeps its
      base value through the loop body. */
  lemma RecKeeps(p: Pass, id: string, entry: Bag, w: Window, n: int, k: string)
    requires Lacks([entry], k) && !LoopOwned(k)
    ensures SameAt(TouchRec(p, id, entry, w, n), Base(p.items, id), k)
  {
    assert forall j :: 0 <= j < |entry| ==> entry[j].key != k && entry[j].key != k + Fields.PARSED by {
      assert forall j :: 0 <= j < |entry| ==> [entry][0][j] == entry[j];
    }
    NewsItems.NoFieldNoWrite(entry, k);
    NewsItems.UpdateKeeps(Base(p.items, id), entry, w.updated, w.lastUpdated, k);
  }

  lemma TouchFacts(p: Pass, id: string, entry: Bag, w: Window, n: int)
    requires UniqueIds(p.items)
    ensures var r := Touch(p, id, entry, w, n);
      && UniqueIds(r.items)
      && r.seen == p.seen + [id]
      && r.created == p.created + NewIds([id], Ids(p.items))
      && Ids(r.items) == Ids(p.items) + NewIds([id], Ids(p.items))
      && (forall i :: 0 <= i < |p.items| ==> Grows(p.items[i], r.items[i]))
      && (forall i :: |p.items| <= i < |r.items| ==> Dated(r.items[i]))
  {
    var r := Touch(p, id, entry, w, n);
    var at := IndexOf(p.items, id);
    assert [id][1..] == [];
    if at.Some? {
      assert id in Ids(p.items);
      assert NewIds([id], Ids(p.items)) == [];
      assert Ids(r.items) == Ids(p.items);
      assert forall i :: 0 <= i < |p.items| && i != at.value ==> r.items[i] == p.items[i];
    } else {
      assert NewIds([id], Ids(p.items)) == [id];
      assert Ids(r.items) == Ids(p.items) + [id];
      assert NewsItems.DateOrUnset(NewsItems.Fresh(id));
    }
  }

  /** One pass of the entry loop. */
  function Absorb(p: Pass, entry: Bag, url: string, w: Window, n: int, digest: string -> string): (r: Result<Pass>)
    ensures r.Ok? <==> !ResolveId(entry, url, digest).Unreadable?
  {
    match ResolveId(entry, url, digest)
    case Unreadable(k) => Err("entry id under " + k + " is not text")
    case Anonymous => Ok(p)
    case Named(id) => Ok(Touch(p, id, entry, w, n))
  }

  lemma AbsorbFacts(p: Pass, entry: Bag, url: string, w: Window, n: int, digest: string -> string)
    requires UniqueIds(p.items)
    requires Absorb(p, entry, url, w, n, digest).Ok?
    ensures var r := Absorb(p, entry, url, w, n, digest).value;
      var s := SeenIds([entry], url, digest);
      && UniqueIds(r.items)
      && r.seen == p.seen + s
      && r.created == p.created + NewIds(s, Ids(p.items))
      && Ids(r.items) == Ids(p.items) + NewIds(s, Ids(p.items))
      && (forall i :: 0 <= i < |p.items| ==> Grows(p.items[i], r.items[i]))
      && (forall i :: |p.items| <= i < |r.items| ==> Dated(r.items[i]))
  {
    assert [entry][1..] == [];
    match ResolveId(entry, url, digest)
    case Named(id) =>
      TouchFacts(p, id, entry, w, n);
    case Anonymous =>
      assert SeenIds([entry], url, digest) == [];
      assert p.created + [] == p.created && p.seen + [] == p.seen && Ids(p.items) + [] == Ids(p.items);
  }

  lemma SeenIdsCons(entries: seq<Bag>, url: string, digest: string -> string)
    requires |entries| > 0
    ensures SeenIds(entries, url, digest) == SeenIds([entries[0]], url, digest) + SeenIds(entries[1..], url, digest)
  {
    var one := [entries[0]];
    assert one[1..] == [];
    assert SeenIds(one[1..], url, digest) == [];
    match ResolveId(entries[0], url, digest)
    case Named(id) =>
      assert SeenIds(one, url, digest) == [id];
    case _ =>
      assert SeenIds(one, url, digest) == [];
  }

  lemma NewIdsCons(a: seq<string>, b: seq<string>, known: seq<string>)
    requires |a| <= 1
    ensures NewIds(a + b, known) == NewIds(a, known) + NewIds(b, known + NewIds(a, known))
  {
    if |a| == 1 {
      assert (a + b)[0] == a[0] && (a + b)[1..] == b;
      assert a[1..] == [];
      assert NewIds(a, known) == (if a[0] in known then [] else [a[0]]);
      assert known + [] == known;
    } else {
      assert a + b == b && known + [] == known;
    }
  }

  lemma Assoc<T>(a: seq<T>, b: seq<T>, c: seq<T>)
    ensures (a + b) + c == a + (b + c)
  {
  }

  /** The entry loop over a whole snapshot; it stops at the first entry
      whose id cannot be read, as the source's exception does. */
  function AbsorbAll(p: Pass, entries: seq<Bag>, url: string, w: Window, n: int, digest: string -> string): (r: Result<Pass>)
    ensures r.Ok? <==> AllReadable(entries, url, digest)
    decreases |entries|
  {
    if |entries| == 0 then Ok(p)
    else
      assert forall i :: 1 <= i < |entries| ==> entries[i] == entries[1..][i - 1];
      var q := Absorb(p, entries[0], url, w, n, digest);
      if q.Err? then Err(q.error)
      else AbsorbAll(q.value, entries[1..], url, w, n, digest)
  }

  /** The entry loop's bookkeeping: ids stay unique, `feed_items` is the
      snapshot's ids, and the created items are the snapshot's new ids in
      first-seen order, appended to the dictionary. */
  lemma {:induction false} AbsorbAllIds(p: Pass, entries: seq<Bag>, url: string, w: Window, n: int, digest: string -> string)
    requires UniqueIds(p.items)
    requires AbsorbAll(p, entries, url, w, n, digest).Ok?
    ensures var r := AbsorbAll(p, entries, url, w, n, digest).value;
      var s := SeenIds(entries, url, digest);
      && UniqueIds(r.items)
      && r.seen == p.seen + s
      && r.created == p.created + NewIds(s, Ids(p.items))
      && Ids(r.items) == Ids(p.items) + NewIds(s, Ids(p.items))
    decreases |entries|
  {
    if |entries| == 0 {
      assert p.created + [] == p.created && p.seen + [] == p.seen && Ids(p.items) + [] == Ids(p.items);
    } else {
      var q := Absorb(p, entries[0], url, w, n, digest).value;
      AbsorbFacts(p, entries[0], url, w, n, digest);
      AbsorbAllIds(q, entries[1..], url, w, n, digest);
      SeenIdsCons(entries, url, digest);
      var s0 := SeenIds([entries[0]], url, digest);
      var s1 := SeenIds(entries[1..], url, digest);
      NewIdsCons(s0, s1, Ids(p.items));
      var r := AbsorbAll(p, entries, url, w, n, digest).value;
      assert r == AbsorbAll(q, entries[1..], url, w, n, digest).value;
      var k := Ids(p.items);
      var n0 := NewIds(s0, k);
      var n1 := NewIds(s1, Ids(q.items));
      assert Ids(q.items) == k + n0;
      assert NewIds(s0 + s1, k) == n0 + n1;
      Assoc(p.seen, s0, s1);
      Assoc(p.created, n0, n1);
      Assoc(k, n0, n1);
    }
  }

  /** The entry loop only grows existing items, and every item it creates
      has a date. */
  lemma {:induction false} AbsorbAllGrows(p: Pass, entries: seq<Bag>, url: string, w: Window, n: int, digest: string -> string)
    requires UniqueIds(p.items)
    requires AbsorbAll(p, entries, url, w, n, digest).Ok?
    ensures var r := AbsorbAll(p, entries, url, w, n, digest).value;
      && |p.items| <= |r.items|
      && (forall i :: 0 <= i < |p.items| ==> Grows(p.items[i], r.items[i]))
      && (forall i :: |p.items| <= i < |r.items| ==> Dated(r.items[i]))
    decreases |entries|
  {
    if |entries| > 0 {
      var q := Absorb(p, entries[0], url, w, n, digest).value;
      AbsorbFacts(p, entries[0], url, w, n, digest);
      AbsorbAllGrows(q, entries[1..], url, w, n, digest);
      var r := AbsorbAll(p, entries, url, w, n, digest).value;
      assert r == AbsorbAll(q, entries[1..], url, w, n, digest).value;
      assert |Ids(p.items)| <= |Ids(q.items)|;
      forall i | 0 <= i < |p.items|
        ensures Grows(p.items[i], r.items[i])
      {
        assert Grows(p.items[i], q.items[i]) && Grows(q.items[i], r.items[i]);
      }
      forall i | |p.items| <= i < |r.items|
        ensures Dated(r.items[i])
      {
        if i < |q.items| {
          assert Dated(q.items[i]) && Grows(q.items[i], r.items[i]);
        }
      }
    }
  }

  /** An item an update does not hide keeps its hidden flag, and an
      entry never carries it. */
  lemma TouchHiding(p: Pass, id: string, entry: Bag, w: Window, n: int)
    requires UniqueIds(p.items)
    requires Lacks([entry], "hidden")
    ensures var r := Touch(p, id, entry, w, n);
      forall i :: 0 <= i < |r.items| ==>
        (IsHidden(r.items[i]) <==>
          (i < |p.items| && IsHidden(p.items[i])) || (r.items[i].id == id && Hides(w, n, |p.seen| + 1)))
  {
    TouchFacts(p, id, entry, w, n);
    assert forall j :: 0 <= j < |entry| ==> entry[j].key != "hidden" && entry[j].key != "hidden" + Fields.PARSED by {
      assert forall j :: 0 <= j < |entry| ==> [entry][0][j] == entry[j];
    }
    NewsItems.NoFieldNoWrite(entry, "hidden");
    var base := Base(p.items, id);
    NewsItems.UpdateKeeps(base, entry, w.updated, w.lastUpdated, "hidden");
    var at := IndexOf(p.items, id);
    var r := Touch(p, id, entry, w, n);
    if at.Some? {
      assert forall i :: 0 <= i < |p.items| && i != at.value ==> r.items[i] == p.items[i];
    }
  }

  lemma HiddenAtSplit(w: Window, n: int, a: seq<string>, b: seq<string>, from: nat, x: string)
    requires from <= |a|
    ensures HiddenAt(w, n, a + b, from, x) <==> HiddenAt(w, n, a, from, x) || HiddenAt(w, n, a + b, |a|, x)
  {
    if HiddenAt(w, n, a, from, x) {
      var q :| from <= q < |a| && Hides(w, n, q + 1) && a[q] == x;
      assert (a + b)[q] == x;
    }
  }

  /** Which items the entry loop leaves hidden, for entries that do not
      carry a hidden key themselves: exactly those hidden before, and
      those whose id sits in `feed_items` at a position past the limit
      on first sight. */
  lemma {:induction false} AbsorbAllHiding(p: Pass, entries: seq<Bag>, url: string, w: Window, n: int, digest: string -> string)
    requires UniqueIds(p.items)
    requires Lacks(entries, "hidden")
    requires AbsorbAll(p, entries, url, w, n, digest).Ok?
    ensures var r := AbsorbAll(p, entries, url, w, n, digest).value;
      forall i :: 0 <= i < |r.items| ==>
        (IsHidden(r.items[i]) <==>
          (i < |p.items| && IsHidden(p.items[i])) || HiddenAt(w, n, r.seen, |p.seen|, r.items[i].id))
    decreases |entries|
  {
    var r := AbsorbAll(p, entries, url, w, n, digest).value;
    AbsorbAllIds(p, entries, url, w, n, digest);
    if |entries| == 0 {
      assert r == p;
    } else {
      var e := entries[0];
      LacksSplit(entries, "hidden");
      var q := Absorb(p, e, url, w, n, digest).value;
      AbsorbFacts(p, e, url, w, n, digest);
      assert r == AbsorbAll(q, entries[1..], url, w, n, digest).value;
      AbsorbAllHiding(q, entries[1..], url, w, n, digest);
      AbsorbAllIds(q, entries[1..], url, w, n, digest);
      var s1 := SeenIds(entries[1..], url, digest);
      assert r.seen == q.seen + s1;
      AbsorbHiding(p, e, url, w, n, digest);
      forall i | 0 <= i < |r.items|
        ensures IsHidden(r.items[i]) <==>
          (i < |p.items| && IsHidden(p.items[i])) || HiddenAt(w, n, r.seen, |p.seen|, r.items[i].id)
      {
        var x := r.items[i].id;
        assert |p.seen| <= |q.seen|;
        HiddenAtSplit(w, n, q.seen, s1, |p.seen|, x);
        if i < |q.items| {
          assert Ids(r.items)[i] == Ids(q.items)[i];
        } else {
          assert x in Ids(r.items)[|q.items|..];
          assert x !in Ids(q.items);
        }
      }
    }
  }

  /** One pass of the loop, for an entry without a hidden key: hidden
      are the items hidden before and the one whose id the pass appends
      to `feed_items` past the first-sight limit. */
  lemma AbsorbHiding(p: Pass, e: Bag, url: string, w: Window, n: int, digest: string -> string)
    requires UniqueIds(p.items)
    requires Lacks([e], "hidden")
    requires Absorb(p, e, url, w, n, digest).Ok?
    ensures var q := Absorb(p, e, url, w, n, digest).value;
      forall i :: 0 <= i < |q.items| ==>
        (IsHidden(q.items[i]) <==>
          (i < |p.items| && IsHidden(p.items[i])) || HiddenAt(w, n, q.seen, |p.seen|, q.items[i].id))
  {
    var q := Absorb(p, e, url, w, n, digest).value;
    match ResolveId(e, url, digest)
    case Named(id) =>
      TouchHiding(p, id, e, w, n);
      assert q.seen == p.seen + [id];
      forall i | 0 <= i < |q.items|
        ensures HiddenAt(w, n, q.seen, |p.seen|, q.items[i].id) <==> (q.items[i].id == id && Hides(w, n, |p.seen| + 1))
      {
        if HiddenAt(w, n, q.seen, |p.seen|, q.items[i].id) {
          var j :| |p.seen| <= j < |q.seen| && Hides(w, n, j + 1) && q.seen[j] == q.items[i].id;
          assert j == |p.seen|;
        }
        if q.items[i].id == id && Hides(w, n, |p.seen| + 1) {
          assert q.seen[|p.seen|] == id;
        }
      }
    case Anonymous =>
      assert q == p;
  }

  /** The keys the entry loop itself writes besides the entry's own. */
  predicate LoopOwned(k: string)
  {
    k in {"date", "hidden", "source_name", "source_link", "content"}
  }

  lemma TouchKeeps(p: Pass, id: string, entry: Bag, w: Window, n: int, k: string)
    requires UniqueIds(p.items)
    requires Lacks([entry], k) && !LoopOwned(k)
    ensures var r := Touch(p, id, entry, w, n);
      && (forall i :: 0 <= i < |p.items| ==> SameAt(r.items[i].rec, p.items[i].rec, k))
      && (forall i :: |p.items| <= i < |r.items| ==> SameAt(r.items[i].rec, NewsItems.Fresh(r.items[i].id), k))
  {
    RecKeeps(p, id, entry, w, n, k);
    var at := IndexOf(p.items, id);
    var r := Touch(p, id, entry, w, n);
    if at.Some? {
      assert p.items[at.value].rec == Base(p.items, id);
      assert forall i :: 0 <= i < |p.items| && i != at.value ==> r.items[i] == p.items[i];
    } else {
      assert r.items == p.items + [Item(id, TouchRec(p, id, entry, w, n))];
    }
  }

  /** One pass of the loop keeps such a key the same way. */
  lemma AbsorbKeeps(p: Pass, e: Bag, url: string, w: Window, n: int, digest: string -> string, k: string)
    requires UniqueIds(p.items)
    requires Lacks([e], k) && !LoopOwned(k)
    requires Absorb(p, e, url, w, n, digest).Ok?
    ensures var q := Absorb(p, e, url, w, n, digest).value;
      && (forall i :: 0 <= i < |p.items| ==> SameAt(q.items[i].rec, p.items[i].rec, k))
      && (forall i :: |p.items| <= i < |q.items| ==> SameAt(q.items[i].rec, NewsItems.Fresh(q.items[i].id), k))
  {
    match ResolveId(e, url, digest)
    case Named(id) => TouchKeeps(p, id, e, w, n, k);
    case Anonymous =>
  }

  /** A snapshot without key `k` splits into a first entry and a rest
      without it. */
  lemma LacksSplit(entries: seq<Bag>, k: string)
    requires |entries| > 0 && Lacks(entries, k)
    ensures Lacks([entries[0]], k) && Lacks(entries[1..], k)
  {
    var e := entries[0];
    assert forall j :: 0 <= j < |e| ==> [e][0][j] == entries[0][j];
    assert forall i :: 0 <= i < |entries| - 1 ==> entries[1..][i] == entries[i + 1];
  }

  /** A key that no entry carries and the loop does not own keeps its
      value on every existing item, and on every created item keeps the
      value a fresh item starts with: in particular `order` and `id`. */
  lemma {:induction false} AbsorbAllKeeps(p: Pass, entries: seq<Bag>, url: string, w: Window, n: int, digest: string -> string, k: string)
    requires UniqueIds(p.items)
    requires Lacks(entries, k) && !LoopOwned(k)
    requires AbsorbAll(p, entries, url, w, n, digest).Ok?
    ensures var r := AbsorbAll(p, entries, url, w, n, digest).value;
      && |p.items| <= |r.items|
      && (forall i :: 0 <= i < |p.items| ==> SameAt(r.items[i].rec, p.items[i].rec, k))
      && (forall i :: |p.items| <= i < |r.items| ==> SameAt(r.items[i].rec, NewsItems.Fresh(r.items[i].id), k))
    decreases |entries|
  {
    var r := AbsorbAll(p, entries, url, w, n, digest).value;
    AbsorbAllGrows(p, entries, url, w, n, digest);
    if |entries| == 0 {
      assert r == p;
    } else {
      var e := entries[0];
      LacksSplit(entries, k);
      var q := Absorb(p, e, url, w, n, digest).value;
      AbsorbFacts(p, e, url, w, n, digest);
      assert r == AbsorbAll(q, entries[1..], url, w, n, digest).value;
      AbsorbAllKeeps(q, entries[1..], url, w, n, digest, k);
      AbsorbAllGrows(q, entries[1..], url, w, n, digest);
      AbsorbKeeps(p, e, url, w, n, digest, k);
      forall i | 0 <= i < |r.items|
        ensures i < |p.items| ==> SameAt(r.items[i].rec, p.items[i].rec, k)
        ensures i >= |p.items| ==> SameAt(r.items[i].rec, NewsItems.Fresh(r.items[i].id), k)
      {
        if i < |q.items| {
          assert Grows(q.items[i], r.items[i]);
        }
      }
    }
  }
}

=== FILE: channels.dfy ===
/**
 * A channel: its fetch negotiation state, its cached record and its news
 * items, with the per-channel views of those items.
 */
module Channels {
  import opened Wrappers
  import opened Values
  import opened Ordering
  import NewsItems

  /** A news item: the key it is filed under in the channel, and its record. */
  datatype Item = Item(id: string, rec: Record)

  /** A channel. `url`, `etag` and `modified` are the fetch state (the feed
      keys url, url_etag and url_modified are never copied over them); every
      other attribute, including updated, last_updated, next_order, name,
      hidden and filter, lives in the cached record `info`. The items are
      kept in the order the channel's dictionary enumerates them. */
  datatype Channel = Channel(
    url: string,
    etag: Option<string>,
    modified: Option<int>,
    info: Record,
    items: seq<Item>)

  function Ids(items: seq<Item>): (ids: seq<string>)
    ensures |ids| == |items|
    ensures forall i :: 0 <= i < |items| ==> ids[i] == items[i].id
  {
    seq(|items|, i requires 0 <= i < |items| => items[i].id)
  }

  /** The item dictionary holds each id once. */
  predicate UniqueIds(items: seq<Item>)
  {
    forall i, j :: 0 <= i < j < |items| ==> items[i].id != items[j].id
  }

  /** An item is hidden when its record has the key at all. */
  predicate IsHidden(it: Item)
  {
    "hidden" in it.rec
  }

  /** Whether a view asked for with `hidden` lists the item. */
  predicate Shown(it: Item, hidden: bool)
  {
    hidden || !IsHidden(it)
  }

  predicate Dated(it: Item)
  {
    "date" in it.rec && it.rec["date"].Date?
  }

  /** The first element of the item's sort tuple, `time.mktime(item.date)`. */
  function Time(it: Item): int
  {
    if Dated(it) then it.rec["date"].t else 0
  }

  /** The leading part of the item's sort tuple: its date, then its order,
      which is compared as the string it is stored as. */
  function ItemKey(it: Item): SortKey
  {
    SortKey(Time(it), Get(it.rec, "order"))
  }

  /** Every item a view with `hidden` would list has a date, which the
      source needs to build its sort tuple. */
  predicate Sortable(items: seq<Item>, hidden: bool)
  {
    forall x :: x in items && Shown(x, hidden) ==> Dated(x)
  }

  /** The state a channel is in between updates. */
  predicate Valid(c: Channel)
  {
    UniqueIds(c.items) && Sortable(c.items, false)
  }

  /** The items a view with `hidden` lists, in dictionary order. */
  function Visible(items: seq<Item>, hidden: bool): (r: seq<Item>)
    ensures forall x :: x in r <==> x in items && Shown(x, hidden)
    ensures hidden ==> r == items
    ensures |r| <= |items|
    ensures UniqueIds(items) ==> UniqueIds(r)
  {
    if |items| == 0 then []
    else
      var rest := Visible(items[1..], hidden);
      assert forall x :: x in items <==> x == items[0] || x in items[1..];
      if Shown(items[0], hidden) then
        ConsUnique(items, rest);
        [items[0]] + rest
      else rest
  }

  /** The filter keeps the items' order: the items a view lists from a
      concatenation are those it lists from the front, then those from
      the back. */
  lemma {:induction false} VisibleAppend(a: seq<Item>, b: seq<Item>, hidden: bool)
    ensures Visible(a + b, hidden) == Visible(a, hidden) + Visible(b, hidden)
  {
    if |a| == 0 {
      assert a + b == b;
    } else {
      assert (a + b)[0] == a[0];
      assert (a + b)[1..] == a[1..] + b;
      VisibleAppend(a[1..], b, hidden);
    }
  }

  /** The head of a sequence with unique ids, put in front of some of
      its tail's items, keeps the ids unique. */
  lemma ConsUnique(items: seq<Item>, rest: seq<Item>)
    requires |items| > 0
    ensures UniqueIds(items) && UniqueIds(rest) && (forall y :: y in rest ==> y in items[1..]) ==>
              UniqueIds([items[0]] + rest)
  {
    if UniqueIds(items) && UniqueIds(rest) && (forall y :: y in rest ==> y in items[1..]) {
      var r := [items[0]] + rest;
      forall j | 0 <= j < |rest|
        ensures rest[j].id != items[0].id
      {
        assert rest[j] in items[1..];
        var k :| 0 <= k < |items| - 1 && items[1..][k] == rest[j];
        assert items[k + 1] == rest[j];
      }
      forall a, b | 0 <= a < b < |r|
        ensures r[a].id != r[b].id
      {
        assert r[b] == rest[b - 1];
        if a > 0 {
          assert r[a] == rest[a - 1];
        }
      }
    }
  }

  /** Channel.items: the listed items, newest first by (date, order) when
      `sorted`. Items whose keys tie are in no particular order in the
      source; the model keeps them in a fixed one. */
  function ItemsView(items: seq<Item>, hidden: bool, sorted: bool): (r: seq<Item>)
    requires Sortable(items, hidden)
    ensures multiset(r) == multiset(Visible(items, hidden))
    ensures forall x :: x in r <==> x in items && Shown(x, hidden)
    ensures forall x :: x in r ==> Dated(x)
    ensures sorted ==> Descending(r, ItemKey)
    ensures !sorted ==> r == Visible(items, hidden)
  {
    var listed := Visible(items, hidden);
    if sorted then
      var s := Sort(listed, ItemKey);
      ReverseAscending(s, ItemKey);
      var r := Reverse(s);
      assert forall x :: x in r <==> x in multiset(r);
      assert forall x :: x in listed <==> x in multiset(listed);
      r
    else listed
  }

  /** Where the item filed under `id` sits, if the channel has it. */
  function IndexOf(items: seq<Item>, id: string): (r: Option<nat>)
    ensures r.None? <==> id !in Ids(items)
    ensures r.Some? ==> r.value < |items| && items[r.value].id == id
  {
    if |items| == 0 then None
    else if items[0].id == id then Some(0)
    else
      var r := IndexOf(items[1..], id);
      if r.None? then
        assert id !in Ids(items) by {
          forall k | 0 <= k < |items|
            ensures Ids(items)[k] != id
          {
            if k > 0 {
              assert items[k] == items[1..][k - 1];
              assert Ids(items[1..])[k - 1] != id;
            }
          }
        }
        None
      else
        assert Ids(items)[r.value + 1] == id;
        Some(r.value + 1)
  }

  /** Channel.get_name: the name, else the title, else the empty string. */
  function GetName(info: Record): (s: string)
    ensures Get(info, "name") != Null ==> s == TextOf(info["name"])
    ensures Get(info, "name") == Null && Get(info, "title") != Null ==> s == TextOf(info["title"])
    ensures Get(info, "name") == Null && Get(info, "title") == Null ==> s == ""
  {
    var keys := ["name", "title"];
    assert keys[0] == "name" && keys[1] == "title";
    FirstText(info, keys)
  }

  /** The record an item is read back with: a fresh item's defaults
      overlaid by what the cache holds for its id. */
  function Load(id: string, stored: map<string, Record>): (r: Record)
    ensures r.Keys == NewsItems.Fresh(id).Keys + (if id in stored then stored[id].Keys else {})
    ensures id in stored ==> forall k :: k in stored[id] ==> r[k] == stored[id][k]
    ensures forall k :: k in NewsItems.Fresh(id) && (id !in stored || k !in stored[id])
                        ==> r[k] == NewsItems.Fresh(id)[k]
  {
    NewsItems.Fresh(id) + (if id in stored then stored[id] else map[])
  }

  /** The cache keys the channel's fetch state is kept under. */
  const FETCH_KEYS: set<string> := {"url", "url_etag", "url_modified"}

  /** Channel.cache_read_entries: every cache key without a space that is
      not one of the channel's own keys, its cached record or its fetch
      state, names an item. */
  function CacheReadEntries(keys: seq<string>, info: Record, stored: map<string, Record>): (r: seq<Item>)
    ensures UniqueIds(r)
    ensures forall id :: id in Ids(r) <==> id in keys && ' ' !in id && id !in info && id !in FETCH_KEYS
    ensures forall i :: 0 <= i < |r| ==> r[i].rec == Load(r[i].id, stored)
  {
    if |keys| == 0 then []
    else
      var r := CacheReadEntries(keys[..|keys| - 1], info, stored);
      var k := keys[|keys| - 1];
      LastIn(keys);
      if ' ' in k || k in info || k in FETCH_KEYS || k in Ids(r) then r
      else
        AppendNew(r, Item(k, Load(k, stored)));
        r + [Item(k, Load(k, stored))]
  }

  /** Membership in a non-empty sequence: in the front, or the last. */
  lemma LastIn(s: seq<string>)
    requires |s| > 0
    ensures forall x :: x in s <==> x in s[..|s| - 1] || x == s[|s| - 1]
  {
    assert s == s[..|s| - 1] + [s[|s| - 1]];
  }

  /** Appending an item under a new id keeps the ids unique. */
  lemma AppendNew(r: seq<Item>, x: Item)
    requires UniqueIds(r) && x.id !in Ids(r)
    ensures UniqueIds(r + [x])
    ensures Ids(r + [x]) == Ids(r) + [x.id]
  {
    forall i | 0 <= i < |r| ensures r[i].id != x.id {
      assert Ids(r)[i] == r[i].id;
    }
  }
}

=== FILE: decimal.dfy ===
/**
 * The decimal strings the channel uses for its `next_order` counter and
 * for every item's `order`: `str(n)` and `int(s)`.
 */
module Decimal {
  import opened Wrappers

  predicate IsDigit(c: char)
  {
    '0' <= c <= '9'
  }

  predicate AllDigits(s: string)
  {
    forall i :: 0 <= i < |s| ==> IsDigit(s[i])
  }

  function DigitChar(d: nat): (c: char)
    requires d < 10
    ensures IsDigit(c)
  {
    ('0' as int + d) as char
  }

  function DigitValue(c: char): (d: nat)
    requires IsDigit(c)
    ensures d < 10 && DigitChar(d) == c
  {
    c as int - '0' as int
  }

  /** `str(n)` for a counter value: digits only, no leading zero. */
  function Show(n: nat): (s: string)
    ensures |s| > 0 && AllDigits(s)
    ensures s[0] == '0' ==> n == 0 && |s| == 1
  {
    if n < 10 then [DigitChar(n)] else Show(n / 10) + [DigitChar(n % 10)]
  }

  /** The number a digit string denotes. */
  function ValueOf(s: string): nat
    requires AllDigits(s)
  {
    if |s| == 0 then 0 else ValueOf(s[..|s| - 1]) * 10 + DigitValue(s[|s| - 1])
  }

  /** `int(s)`, defined here on non-empty digit strings; the source raises
      `ValueError` on anything else it cannot read. */
  function Parse(s: string): (r: Option<nat>)
    ensures r.Some? <==> |s| > 0 && AllDigits(s)
  {
    if |s| > 0 && AllDigits(s) then Some(ValueOf(s)) else None
  }

  /** Incrementing the counter through `int` and `str` loses nothing. */
  lemma {:induction false} ParseShow(n: nat)
    ensures Parse(Show(n)) == Some(n)
  {
    if n >= 10 {
      ParseShow(n / 10);
      var s := Show(n / 10);
      var c := DigitChar(n % 10);
      assert (s + [c])[..|s|] == s;
      assert ValueOf(s + [c]) == ValueOf(s) * 10 + n % 10;
    } else {
      assert ValueOf(Show(n)) == ValueOf([]) * 10 + n;
    }
  }

  /** A digit string with a non-zero leading digit denotes a positive number. */
  lemma {:induction false} LeadingDigitPositive(s: string)
    requires |s| > 0 && AllDigits(s) && s[0] != '0'
    ensures ValueOf(s) > 0
  {
    if |s| > 1 {
      LeadingDigitPositive(s[..|s| - 1]);
    }
  }

  /** The other direction of the round trip: a canonical digit string is
      exactly what `str` prints for the number `int` reads from it. */
  lemma {:induction false} ShowParse(s: string)
    requires Parse(s).Some?
    requires s[0] != '0' || |s| == 1
    ensures Show(Parse(s).value) == s
  {
    var init := s[..|s| - 1];
    var d := DigitValue(s[|s| - 1]);
    if |s| > 1 {
      assert init[0] == s[0];
      LeadingDigitPositive(init);
      ShowParse(init);
      var n := ValueOf(s);
      assert n / 10 == ValueOf(init) && n % 10 == d;
      assert s == init + [s[|s| - 1]];
    } else {
      assert s == [s[0]];
    }
  }
}

=== FILE: expiry.dfy ===
/**
 * Step five of Channel.update_entries: items that, by the sort order,
 * should still be in the feed but are not are taken to have expired or
 * been replaced, and are dropped from the channel.
 */
module Expiry {
  import opened Values
  import opened Channels

  /** The expiry loop over `order` (the channel's items, newest first)
      with `budget` set to the number of ids the feed delivered: an item
      the feed delivered uses up one unit, any other item met while
      budget remains is expired. */
  function Scan(order: seq<Item>, seen: seq<string>, budget: int): (gone: seq<Item>)
    ensures forall x :: x in gone ==> x in order && x.id !in seen
    ensures |gone| <= |order|
    decreases |order|
  {
    if |order| == 0 || budget < 1 then []
    else
      var rest := if order[0].id in seen then Scan(order[1..], seen, budget - 1)
                  else [order[0]] + Scan(order[1..], seen, budget);
      assert forall x :: x in order[1..] ==> x in order;
      rest
  }

  /** How many items of `order` the feed delivered. */
  function Matches(order: seq<Item>, seen: seq<string>): nat
  {
    if |order| == 0 then 0
    else (if order[0].id in seen then 1 else 0) + Matches(order[1..], seen)
  }

  /** An item is expired exactly when the feed did not deliver it and
      fewer delivered items than the feed's length come before it. */
  lemma {:induction false} ScanExact(order: seq<Item>, seen: seq<string>, budget: int, i: nat)
    requires UniqueIds(order)
    requires i < |order|
    ensures order[i] in Scan(order, seen, budget) <==>
              order[i].id !in seen && Matches(order[..i], seen) < budget
  {
    if budget < 1 {
    } else if i == 0 {
      assert order[..0] == [];
    } else {
      var tail := order[1..];
      var b := if order[0].id in seen then budget - 1 else budget;
      assert tail[i - 1] == order[i];
      assert order[i] != order[0] by { assert order[i].id != order[0].id; }
      assert UniqueIds(tail) by {
        forall a, c | 0 <= a < c < |tail| ensures tail[a].id != tail[c].id {
          assert tail[a] == order[a + 1] && tail[c] == order[c + 1];
        }
      }
      ScanExact(tail, seen, b, i - 1);
      assert order[..i][1..] == tail[..i - 1];
      assert Matches(order[..i], seen) == (if order[0].id in seen then 1 else 0) + Matches(tail[..i - 1], seen);
    }
  }

  /** The channel's items without those filed under an id in `gone`. */
  function Remove(items: seq<Item>, gone: seq<Item>): (r: seq<Item>)
    ensures forall x :: x in r <==> x in items && x.id !in Ids(gone)
    ensures |r| <= |items|
    ensures UniqueIds(items) ==> UniqueIds(r)
  {
    if |items| == 0 then []
    else
      var rest := Remove(items[1..], gone);
      assert forall x :: x in items <==> x == items[0] || x in items[1..];
      if items[0].id !in Ids(gone) then
        ConsUnique(items, rest);
        [items[0]] + rest
      else rest
  }

  /** The expiry step: walk the visible items newest first with a budget
      of the number of ids the feed delivered, and drop what the walk
      expires. Returns the items kept and the items expired. */
  function Expire(items: seq<Item>, seen: seq<string>): (r: (seq<Item>, seq<Item>))
    requires UniqueIds(items) && Sortable(items, false)
    ensures var (kept, gone) := r;
      && UniqueIds(kept)
      && Sortable(kept, false)
      && (forall x :: x in gone ==> x in items && !IsHidden(x) && x.id !in seen)
      && (forall x :: x in kept <==> x in items && x !in gone)
  {
    var order := ItemsView(items, false, true);
    var gone := Scan(order, seen, |seen|);
    GoneIds(items, gone);
    (Remove(items, gone), gone)
  }

  /** Among items with unique ids, those filed under an id of `gone` are
      exactly the members of `gone`. */
  lemma GoneIds(items: seq<Item>, gone: seq<Item>)
    requires UniqueIds(items)
    requires forall x :: x in gone ==> x in items
    ensures forall x :: x in items ==> (x.id in Ids(gone) <==> x in gone)
  {
    forall x | x in items && x.id in Ids(gone)
      ensures x in gone
    {
      var k :| 0 <= k < |gone| && Ids(gone)[k] == x.id;
      assert gone[k] in items;
      var a :| 0 <= a < |items| && items[a] == x;
      var c :| 0 <= c < |items| && items[c] == gone[k];
      assert a == c;
    }
    forall x | x in gone ensures x.id in Ids(gone) {
      var k :| 0 <= k < |gone| && gone[k] == x;
      assert Ids(gone)[k] == x.id;
    }
  }

  /** Which visible items the expiry step drops, stated over the newest
      first listing. */
  lemma ExpireExact(items: seq<Item>, seen: seq<string>, i: nat)
    requires UniqueIds(items) && Sortable(items, false)
    requires i < |ItemsView(items, false, true)|
    ensures var order := ItemsView(items, false, true);
            order[i] in Expire(items, seen).1 <==>
              order[i].id !in seen && Matches(order[..i], seen) < |seen|
  {
    var order := ItemsView(items, false, true);
    UniqueOnce(Visible(items, false));
    PermUnique(order, Visible(items, false));
    ScanExact(order, seen, |seen|, i);
  }

  /** A sequence holding the same items as one with unique ids has
      unique ids too. */
  lemma PermUnique(s: seq<Item>, t: seq<Item>)
    requires multiset(s) == multiset(t)
    requires UniqueIds(t)
    requires forall x :: multiset(t)[x] <= 1
    ensures UniqueIds(s)
  {
    forall a, c | 0 <= a < c < |s| ensures s[a].id != s[c].id {
      if s[a].id == s[c].id {
        assert s[a] in multiset(t) && s[c] in multiset(t);
        var p :| 0 <= p < |t| && t[p] == s[a];
        var q :| 0 <= q < |t| && t[q] == s[c];
        assert p == q;
        Twice(s, a, c);
        assert false;
      }
    }
  }

  lemma Twice(s: seq<Item>, a: nat, c: nat)
    requires a < c < |s| && s[a] == s[c]
    ensures multiset(s)[s[a]] >= 2
  {
    assert s == s[..a] + [s[a]] + s[a + 1..c] + [s[c]] + s[c + 1..];
  }

  /** A sequence with unique ids holds each item at most once. */
  lemma UniqueOnce(s: seq<Item>)
    requires UniqueIds(s)
    ensures forall x :: multiset(s)[x] <= 1
  {
    forall x ensures multiset(s)[x] <= 1 {
      UniqueOnceAt(s, x);
    }
  }

  lemma {:induction false} UniqueOnceAt(s: seq<Item>, x: Item)
    requires UniqueIds(s)
    ensures multiset(s)[x] <= 1
  {
    if |s| > 0 {
      assert s == [s[0]] + s[1..];
      assert UniqueIds(s[1..]) by {
        forall a, c | 0 <= a < c < |s[1..]| ensures s[1..][a].id != s[1..][c].id {
          assert s[1..][a] == s[a + 1] && s[1..][c] == s[c + 1];
        }
      }
      UniqueOnceAt(s[1..], x);
      if s[0] == x {
        assert x !in s[1..] by {
          forall k | 0 <= k < |s[1..]| ensures s[1..][k] != x {
            assert s[1..][k] == s[k + 1];
          }
        }
      }
    }
  }
}

=== FILE: fetch.dfy ===
/**
 * Channel.update: what the feed fetch's status means for the channel,
 * then the copy of the feed's own keys and the entry reconciliation.
 * The fetch itself is not modelled; its parsed result is an input.
 */
module Fetch {
  import opened Wrappers
  import opened Values
  import Fields
  import opened Channels
  import opened Identity
  import opened Reconcile

  /** The parsed result of fetching a feed: the HTTP status if there was
      one, the URL the feed was fetched from, the negotiation headers,
      the feed's own keys and its entries. */
  datatype Parsed = Parsed(
    status: Option<int>,
    url: string,
    etag: Option<string>,
    modified: Option<int>,
    feed: Bag,
    entries: seq<Bag>)

  /** What a status tells the channel to do: go on, from some URL, or stop. */
  datatype Step = Proceed(url: string) | Stop

  /** No status, a redirect or any status below 400 other than 304 goes
      on; a redirect goes on from the new URL; 304 and errors stop. */
  function Dispatch(status: Option<int>, current: string, moved: string): (s: Step)
    ensures s.Stop? <==> status.Some? && (status.value == 304 || status.value >= 400)
    ensures s.Proceed? ==>
              s.url == (if status.Some? && (status.value == 301 || status.value == 302) then moved else current)
  {
    if status.None? then Proceed(current)
    else if status.value == 301 || status.value == 302 then Proceed(moved)
    else if status.value == 304 then Stop
    else if status.value >= 400 then Stop
    else Proceed(current)
  }

  /** The channel once a fetch goes on from `url`: the new fetch state
      and the feed's keys copied in, the items as they were. */
  function Refresh(c: Channel, parsed: Parsed, url: string): (r: Channel)
    ensures r.url == url && r.etag == NonEmpty(parsed.etag) && r.modified == parsed.modified
    ensures r.items == c.items
    ensures r.info == Fields.UpdateInfo(c.info, parsed.feed)
    ensures c.info.Keys <= r.info.Keys
  {
    Channel(url, NonEmpty(parsed.etag), parsed.modified, Fields.UpdateInfo(c.info, parsed.feed), c.items)
  }

  /** Channel.update, from the parsed fetch onward. A 304 or an error
      status leaves the channel as it was, fetch state included; a
      redirect moves the channel to the new URL before the entries are
      read, so ids made up from a title or summary use the new URL; a
      feed with no entries keeps every item and expires none. */
  function Update(c: Channel, parsed: Parsed, now: int, n: int, digest: string -> string): (r: Result<Reconciled>)
    requires Valid(c)
    ensures Dispatch(parsed.status, c.url, parsed.url).Stop? ==> r == Ok(Reconciled(c, []))
    ensures r.Ok? ==> Valid(r.value.channel)
    ensures r.Ok? && Dispatch(parsed.status, c.url, parsed.url).Proceed? ==>
              && r.value.channel.url == Dispatch(parsed.status, c.url, parsed.url).url
              && r.value.channel.etag == NonEmpty(parsed.etag)
              && r.value.channel.modified == parsed.modified
    ensures Dispatch(parsed.status, c.url, parsed.url).Proceed? ==>
              r == UpdateEntries(Refresh(c, parsed, Dispatch(parsed.status, c.url, parsed.url).url),
                                 parsed.entries, now, n, digest)
    ensures parsed.entries == [] ==> r.Ok? && r.value.channel.items == c.items && r.value.expired == []
  {
    match Dispatch(parsed.status, c.url, parsed.url)
    case Stop => Ok(Reconciled(c, []))
    case Proceed(url) => UpdateEntries(Refresh(c, parsed, url), parsed.entries, now, n, digest)
  }
}

=== FILE: fields.dfy ===
/**
 * Copying the keys of a parsed entry (NewsItem.update) or a parsed feed
 * (Channel.update_info) into a cached record. Each key is classified
 * once; what a key writes is a small map, and the record is the old one
 * overlaid by those maps in the parser's key order.
 */
module Fields {
  import opened Values

  const PARSED := "_parsed"
  const DETAIL := "_detail"

  /** Keys an item never copies (NewsItem.IGNORE_KEYS). */
  const ITEM_IGNORE: set<string> :=
    {"categories", "contributors", "enclosures", "links", "guidislink", "date"}

  /** Keys a channel never copies (Channel.IGNORE_KEYS). */
  const CHANNEL_IGNORE: set<string> :=
    {"links", "contributors", "textinput", "cloud", "categories", "url", "url_etag", "url_modified"}

  /** How one key of a parsed entry or feed is treated. */
  datatype Kind =
    | Ignored                        // an ignore key
    | RawDuplicate                   // the bag also carries this key + "_parsed"
    | Detail                         // a "*_detail" key
    | ParsedDate(target: string)     // a "*_parsed" key, stored as a date without the suffix
    | Plain                          // anything else: stored as a string or specially shaped

  /** The tests of the copying loops, tried in this order: the first
      that holds decides the key's kind. */
  function Classify(key: string, bag: Bag, ignore: set<string>): (k: Kind)
    ensures k == Ignored <==> key in ignore || key + PARSED in ignore
    ensures k == RawDuplicate <==>
      && !(key in ignore || key + PARSED in ignore)
      && HasKey(bag, key + PARSED)
    ensures k == Detail <==>
      && !(key in ignore || key + PARSED in ignore)
      && !HasKey(bag, key + PARSED)
      && EndsWith(key, DETAIL)
    ensures k.ParsedDate? <==>
      && !(key in ignore || key + PARSED in ignore)
      && !HasKey(bag, key + PARSED)
      && !EndsWith(key, DETAIL)
      && EndsWith(key, PARSED)
    ensures k.ParsedDate? ==> k.target + PARSED == key
    ensures k == Plain <==>
      && !(key in ignore || key + PARSED in ignore)
      && !HasKey(bag, key + PARSED)
      && !EndsWith(key, DETAIL)
      && !EndsWith(key, PARSED)
  {
    if key in ignore || key + PARSED in ignore then Ignored
    else if HasKey(bag, key + PARSED) then RawDuplicate
    else if EndsWith(key, DETAIL) then Detail
    else if EndsWith(key, PARSED) then
      assert key[..|key| - |PARSED|] + PARSED == key;
      ParsedDate(key[..|key| - |PARSED|])
    else Plain
  }

  /** `set_as_string`: only text coerces; any other shape is dropped. */
  function AsString(key: string, v: Shape): (w: map<string, Value>)
    ensures w.Keys <= {key}
    ensures key in w <==> v.Text?
    ensures key in w ==> w[key] == String(v.text)
  {
    if v.Text? then map[key := String(v.text)] else map[]
  }

  /** `set_as_date` of a parsed date; a `None` date writes nothing. */
  function AsDate(key: string, v: Shape): (w: map<string, Value>)
    ensures w.Keys <= {key}
    ensures key in w <==> v.Stamp?
    ensures key in w ==> w[key] == Date(v.t)
  {
    if v.Stamp? then map[key := Date(v.t)] else map[]
  }

  /** `w` holds `key` exactly when the dictionary has `name`, with its text. */
  predicate Copied(w: map<string, Value>, key: string, sub: map<string, string>, name: string)
  {
    && (key in w <==> name in sub)
    && (key in w ==> w[key] == String(sub[name]))
  }

  /** The concatenation of the parts of a content list. */
  function Concat(parts: seq<string>): (s: string)
    ensures |parts| == 0 ==> s == ""
    ensures |parts| == 1 ==> s == parts[0]
  {
    if |parts| == 0 then "" else parts[0] + Concat(parts[1..])
  }

  /** Appending one more part appends its text. */
  lemma {:induction false} ConcatSnoc(parts: seq<string>, x: string)
    ensures Concat(parts + [x]) == Concat(parts) + x
    decreases |parts|
  {
    if |parts| == 0 {
      assert parts + [x] == [x];
    } else {
      assert (parts + [x])[1..] == parts[1..] + [x];
      ConcatSnoc(parts[1..], x);
    }
  }

  /** The `content` loop of NewsItem.update: starting from the empty
      string, each part's value is appended in turn. */
  method ContentValue(parts: seq<string>) returns (value: string)
    ensures value == Concat(parts)
  {
    value := "";
    var i := 0;
    while i < |parts|
      invariant 0 <= i <= |parts|
      invariant value == Concat(parts[..i])
    {
      ConcatSnoc(parts[..i], parts[i]);
      assert parts[..i + 1] == parts[..i] + [parts[i]];
      value := value + parts[i];
      i := i + 1;
    }
    assert parts[..i] == parts;
  }

  /** What one entry key writes into the item's record. */
  function ItemWrites(f: Field, entry: Bag): (w: map<string, Value>)
    ensures Null !in w.Values
    ensures !(Classify(f.key, entry, ITEM_IGNORE).ParsedDate? || Classify(f.key, entry, ITEM_IGNORE).Plain?)
            ==> w == map[]
    ensures Classify(f.key, entry, ITEM_IGNORE).ParsedDate? ==>
              w == AsDate(Classify(f.key, entry, ITEM_IGNORE).target, f.value)
    ensures Classify(f.key, entry, ITEM_IGNORE).Plain? ==> forall k :: k in w ==> w[k].String?
    ensures Classify(f.key, entry, ITEM_IGNORE).Plain? && f.key == "source" ==> w == SourceWrites(f.value)
    ensures Classify(f.key, entry, ITEM_IGNORE).Plain? && f.key == "content" ==> w == ContentWrites(f.value)
    ensures Classify(f.key, entry, ITEM_IGNORE).Plain? && f.key !in {"source", "content"} ==>
              w == AsString(f.key, f.value)
  {
    match Classify(f.key, entry, ITEM_IGNORE)
    case ParsedDate(target) => AsDate(target, f.value)
    case Plain =>
      if f.key == "source" then SourceWrites(f.value)
      else if f.key == "content" then ContentWrites(f.value)
      else AsString(f.key, f.value)
    case _ => map[]
  }

  /** What an entry's `source` dictionary writes: its value as
      `source_name` and its url as `source_link`, each only if present. */
  function SourceWrites(v: Shape): (w: map<string, Value>)
    ensures w.Keys <= {"source_name", "source_link"}
    ensures forall k :: k in w ==> w[k].String?
    ensures !v.Dict? ==> w == map[]
    ensures v.Dict? ==> Copied(w, "source_name", v.sub, "value") && Copied(w, "source_link", v.sub, "url")
  {
    if v.Dict? then CopyTable(SOURCE, v.sub) else map[]
  }

  /** What an entry's `content` list writes: the concatenated values of
      its parts under `content`. */
  function ContentWrites(v: Shape): (w: map<string, Value>)
    ensures w.Keys <= {"content"}
    ensures !v.Parts? ==> w == map[]
    ensures v.Parts? ==> "content" in w && w["content"] == String(Concat(v.values))
  {
    if v.Parts? then map["content" := String(Concat(v.values))] else map[]
  }

  /** What one feed key writes into the channel's record. */
  function ChannelWrites(f: Field, feed: Bag): (w: map<string, Value>)
    ensures Null !in w.Values
    ensures !(Classify(f.key, feed, CHANNEL_IGNORE).ParsedDate? || Classify(f.key, feed, CHANNEL_IGNORE).Plain?)
            ==> w == map[]
    ensures Classify(f.key, feed, CHANNEL_IGNORE).ParsedDate? ==>
              w == AsDate(Classify(f.key, feed, CHANNEL_IGNORE).target, f.value)
    ensures Classify(f.key, feed, CHANNEL_IGNORE).Plain? && f.key == "image" ==> w == ImageWrites(f.value)
    ensures Classify(f.key, feed, CHANNEL_IGNORE).Plain? && f.key != "image" ==>
              w == AsString(f.key, f.value)
  {
    match Classify(f.key, feed, CHANNEL_IGNORE)
    case ParsedDate(target) => AsDate(target, f.value)
    case Plain =>
      if f.key == "image" then ImageWrites(f.value) else AsString(f.key, f.value)
    case _ => map[]
  }

  /** The `image_*` keys a feed's `image` dictionary fills, and the
      dictionary key each copies. */
  const IMAGE: map<string, string> :=
    map["image_url" := "url", "image_link" := "link", "image_title" := "title",
        "image_width" := "width", "image_height" := "height"]

  /** The keys an entry's `source` dictionary fills, and the dictionary key each copies. */
  const SOURCE: map<string, string> := map["source_name" := "value", "source_link" := "url"]

  /** Copies, for each key of `table`, the dictionary's entry it names, if present. */
  function CopyTable(table: map<string, string>, sub: map<string, string>): (w: map<string, Value>)
    ensures Null !in w.Values
    ensures w.Keys <= table.Keys
    ensures forall k :: k in table ==> Copied(w, k, sub, table[k])
  {
    map k | k in table && table[k] in sub :: String(sub[table[k]])
  }

  /** What the channel's `image` dictionary writes: its url, link, title,
      width and height under `image_*` keys, each only if present. */
  function ImageWrites(v: Shape): (w: map<string, Value>)
    ensures Null !in w.Values
    ensures w.Keys <= {"image_url", "image_link", "image_title", "image_width", "image_height"}
    ensures !v.Dict? ==> w == map[]
    ensures v.Dict? ==>
      && Copied(w, "image_url", v.sub, "url")
      && Copied(w, "image_link", v.sub, "link")
      && Copied(w, "image_title", v.sub, "title")
      && Copied(w, "image_width", v.sub, "width")
      && Copied(w, "image_height", v.sub, "height")
  {
    if v.Dict? then CopyTable(IMAGE, v.sub) else map[]
  }

  /** Overlays the writes of `fields`, in order, on `rec`. */
  function Overlay(rec: Record, fields: Bag, writes: Field -> map<string, Value>): (r: Record)
    ensures rec.Keys <= r.Keys
    ensures forall k :: k in r <==> k in rec || Writes(fields, writes, k)
    decreases |fields|
  {
    if |fields| == 0 then rec
    else
      var r := Overlay(rec + writes(fields[0]), fields[1..], writes);
      WritesCons(fields, writes);
      r
  }

  /** Some field of `fields` writes `k`. */
  predicate Writes(fields: Bag, writes: Field -> map<string, Value>, k: string)
  {
    exists i :: 0 <= i < |fields| && k in writes(fields[i])
  }

  lemma WritesCons(fields: Bag, writes: Field -> map<string, Value>)
    requires |fields| > 0
    ensures forall k :: Writes(fields, writes, k) <==> k in writes(fields[0]) || Writes(fields[1..], writes, k)
  {
    forall k | Writes(fields, writes, k)
      ensures k in writes(fields[0]) || Writes(fields[1..], writes, k)
    {
      var i :| 0 <= i < |fields| && k in writes(fields[i]);
      if i > 0 {
        assert fields[1..][i - 1] == fields[i];
      }
    }
    forall k | Writes(fields[1..], writes, k)
      ensures Writes(fields, writes, k)
    {
      var i :| 0 <= i < |fields| - 1 && k in writes(fields[1..][i]);
      assert fields[i + 1] == fields[1..][i];
    }
  }

  /** A key that no field writes keeps its presence and value. */
  lemma {:induction false} OverlayFrame(rec: Record, fields: Bag, writes: Field -> map<string, Value>, k: string)
    requires forall i :: 0 <= i < |fields| ==> k !in writes(fields[i])
    ensures k in Overlay(rec, fields, writes) <==> k in rec
    ensures k in rec ==> Overlay(rec, fields, writes)[k] == rec[k]
    decreases |fields|
  {
    if |fields| > 0 {
      assert k !in writes(fields[0]);
      forall i | 0 <= i < |fields| - 1
        ensures k !in writes(fields[1..][i])
      {
        assert fields[1..][i] == fields[i + 1];
      }
      OverlayFrame(rec + writes(fields[0]), fields[1..], writes, k);
    }
  }

  /** A key ends up with the value its last writer gave it. */
  lemma {:induction false} OverlayLastWriter(rec: Record, fields: Bag, writes: Field -> map<string, Value>, i: nat, k: string)
    requires i < |fields| && k in writes(fields[i])
    requires forall j :: i < j < |fields| ==> k !in writes(fields[j])
    ensures k in Overlay(rec, fields, writes)
    ensures Overlay(rec, fields, writes)[k] == writes(fields[i])[k]
    decreases |fields|
  {
    var next := rec + writes(fields[0]);
    forall j | i - 1 < j < |fields| - 1
      ensures k !in writes(fields[1..][j])
    {
      assert fields[1..][j] == fields[j + 1];
    }
    if i == 0 {
      OverlayFrame(next, fields[1..], writes, k);
    } else {
      assert fields[1..][i - 1] == fields[i];
      OverlayLastWriter(next, fields[1..], writes, i - 1, k);
    }
  }

  /** The field-copying loop of NewsItem.update. */
  function UpdateFields(rec: Record, entry: Bag): (r: Record)
    ensures forall k :: k in r <==> k in rec || exists i :: 0 <= i < |entry| && k in ItemWrites(entry[i], entry)
  {
    Overlay(rec, entry, f => ItemWrites(f, entry))
  }

  /** Channel.update_info. */
  function UpdateInfo(info: Record, feed: Bag): (r: Record)
    ensures forall k :: k in r <==> k in info || exists i :: 0 <= i < |feed| && k in ChannelWrites(feed[i], feed)
  {
    Overlay(info, feed, f => ChannelWrites(f, feed))
  }

  /** In Channel.update_info, a key no feed field writes keeps its
      presence and value. */
  lemma UpdateInfoKeeps(info: Record, feed: Bag, k: string)
    requires forall i :: 0 <= i < |feed| ==> k !in ChannelWrites(feed[i], feed)
    ensures k in UpdateInfo(info, feed) <==> k in info
    ensures k in info ==> UpdateInfo(info, feed)[k] == info[k]
  {
    OverlayFrame(info, feed, f => ChannelWrites(f, feed), k);
  }

  /** In Channel.update_info, a key takes the value its last writer in
      the feed's key order gives it. */
  lemma UpdateInfoSets(info: Record, feed: Bag, i: nat, k: string)
    requires i < |feed| && k in ChannelWrites(feed[i], feed)
    requires forall j :: i < j < |feed| ==> k !in ChannelWrites(feed[j], feed)
    ensures k in UpdateInfo(info, feed)
    ensures UpdateInfo(info, feed)[k] == ChannelWrites(feed[i], feed)[k]
  {
    OverlayLastWriter(info, feed, f => ChannelWrites(f, feed), i, k);
  }

  /** In the copying loop of NewsItem.update, a key takes the value its
      last writer in the entry's key order gives it. */
  lemma UpdateFieldsSets(rec: Record, entry: Bag, i: nat, k: string)
    requires i < |entry| && k in ItemWrites(entry[i], entry)
    requires forall j :: i < j < |entry| ==> k !in ItemWrites(entry[j], entry)
    ensures k in UpdateFields(rec, entry)
    ensures UpdateFields(rec, entry)[k] == ItemWrites(entry[i], entry)[k]
  {
    OverlayLastWriter(rec, entry, f => ItemWrites(f, entry), i, k);
  }
}

=== FILE: identity.dfy ===
/**
 * Step one of Channel.update_entries: the id an entry is filed under.
 */
module Identity {
  import opened Wrappers
  import opened Values

  /** What an entry's id resolves to. `Unreadable` is an id source that
      is present but is not text: the source's `utf8` raises there. */
  datatype Ident = Named(id: string) | Anonymous | Unreadable(key: string)

  /** The id built from the entry's key `key`, which it carries. */
  function FromKey(entry: Bag, key: string, make: string -> string): (r: Ident)
    requires HasKey(entry, key)
    ensures r.Named? <==> Lookup(entry, key).value.Text?
    ensures r.Named? ==> r.id == make(Lookup(entry, key).value.text)
    ensures r.Unreadable? ==> r.key == key
  {
    var v := Lookup(entry, key).value;
    if v.Text? then Named(make(v.text)) else Unreadable(key)
  }

  /** The precedence update_entries tries: the entry's id, its link, the
      channel url plus "/" plus the digest of its title, then the same of
      its summary. `digest` stands for the hexadecimal MD5 digest. */
  function ResolveId(entry: Bag, url: string, digest: string -> string): (r: Ident)
    ensures r.Anonymous? <==>
      !HasKey(entry, "id") && !HasKey(entry, "link") && !HasKey(entry, "title") && !HasKey(entry, "summary")
    ensures HasKey(entry, "id") ==> r == FromKey(entry, "id", s => s)
    ensures !HasKey(entry, "id") && HasKey(entry, "link") ==> r == FromKey(entry, "link", s => s)
    ensures !HasKey(entry, "id") && !HasKey(entry, "link") && HasKey(entry, "title") ==>
              r == FromKey(entry, "title", s => url + "/" + digest(s))
    ensures !HasKey(entry, "id") && !HasKey(entry, "link") && !HasKey(entry, "title") && HasKey(entry, "summary") ==>
              r == FromKey(entry, "summary", s => url + "/" + digest(s))
  {
    if HasKey(entry, "id") then FromKey(entry, "id", s => s)
    else if HasKey(entry, "link") then FromKey(entry, "link", s => s)
    else if HasKey(entry, "title") then FromKey(entry, "title", s => url + "/" + digest(s))
    else if HasKey(entry, "summary") then FromKey(entry, "summary", s => url + "/" + digest(s))
    else Anonymous
  }

  /** An entry that carries only a title is filed under the channel url,
      a slash and the digest of the title: the same title always lands
      on the same item. */
  lemma TitleOnlyId(title: string, url: string, digest: string -> string)
    ensures ResolveId([Field("title", Text(title))], url, digest) == Named(url + "/" + digest(title))
  {
    assert Lookup([Field("title", Text(title))], "title") == Some(Text(title));
  }

  /** A declared id wins, whatever else the entry carries. */
  lemma DeclaredIdWins(entry: Bag, id: string, url: string, digest: string -> string)
    requires Lookup(entry, "id") == Some(Text(id))
    ensures ResolveId(entry, url, digest) == Named(id)
  {
  }

  /** Every entry's id can be read: no present id source is non-text. */
  predicate AllReadable(entries: seq<Bag>, url: string, digest: string -> string)
  {
    forall i :: 0 <= i < |entries| ==> !ResolveId(entries[i], url, digest).Unreadable?
  }

  /** The ids of a snapshot in feed order, one per identifiable entry and
      repeated when the feed repeats an id: `feed_items`. */
  function SeenIds(entries: seq<Bag>, url: string, digest: string -> string): (ids: seq<string>)
    ensures |ids| <= |entries|
    ensures (forall i :: 0 <= i < |entries| ==> ResolveId(entries[i], url, digest).Anonymous?) ==> ids == []
    ensures forall x :: x in ids ==> exists i :: 0 <= i < |entries| && ResolveId(entries[i], url, digest) == Named(x)
    ensures forall i :: 0 <= i < |entries| && ResolveId(entries[i], url, digest).Named? ==>
              ResolveId(entries[i], url, digest).id in ids
  {
    if |entries| == 0 then []
    else
      var rest := SeenIds(entries[1..], url, digest);
      var head := ResolveId(entries[0], url, digest);
      assert forall i :: 1 <= i < |entries| ==> entries[i] == entries[1..][i - 1];
      if head.Named? then [head.id] + rest else rest
  }

  /** The loop of update_entries appends one id per identifiable entry,
      whether or not it has been seen before, and nothing for the rest. */
  lemma {:induction false} SeenIdsSnoc(entries: seq<Bag>, e: Bag, url: string, digest: string -> string)
    ensures SeenIds(entries + [e], url, digest) ==
            SeenIds(entries, url, digest) + (match ResolveId(e, url, digest) case Named(id) => [id] case _ => [])
    decreases |entries|
  {
    if |entries| == 0 {
      assert entries + [e] == [e];
      assert [e][1..] == [];
    } else {
      assert (entries + [e])[0] == entries[0];
      assert (entries + [e])[1..] == entries[1..] + [e];
      SeenIdsSnoc(entries[1..], e, url, digest);
    }
  }

  /** The ids of `s` that are not in `known`, each once, in the order they
      first appear: the items a snapshot creates. */
  function NewIds(s: seq<string>, known: seq<string>): (r: seq<string>)
    ensures forall x :: x in r <==> x in s && x !in known
    ensures Distinct(r)
    decreases |s|
  {
    if |s| == 0 then []
    else if s[0] in known then NewIds(s[1..], known)
    else
      var rest := NewIds(s[1..], known + [s[0]]);
      assert forall x :: x in s <==> x == s[0] || x in s[1..];
      assert s[0] !in rest;
      assert forall j :: 0 <= j < |rest| ==> rest[j] in rest;
      [s[0]] + rest
  }

  /** The position where `x` first occurs in `s`. */
  function FirstIndex(s: seq<string>, x: string): (i: nat)
    requires x in s
    ensures i < |s| && s[i] == x
    ensures forall j :: 0 <= j < i ==> s[j] != x
  {
    if s[0] == x then 0 else FirstIndex(s[1..], x) + 1
  }

  /** Past a different first element, the first occurrence is one further on. */
  lemma FirstIndexTail(s: seq<string>, x: string)
    requires x in s && x != s[0]
    ensures x in s[1..] && FirstIndex(s, x) == FirstIndex(s[1..], x) + 1
  {
  }

  /** The created ids come in the order of their first appearance in the
      snapshot: `new_items` is appended to as the entries are read. */
  lemma {:induction false} NewIdsInOrder(s: seq<string>, known: seq<string>, a: nat, b: nat)
    requires a < b < |NewIds(s, known)|
    ensures FirstIndex(s, NewIds(s, known)[a]) < FirstIndex(s, NewIds(s, known)[b])
    decreases |s|
  {
    if s[0] in known {
      NewIdsSkip(s, known);
      NewIdsInOrder(s[1..], known, a, b);
      OrderSkip(s, known, a, b);
    } else if a > 0 {
      NewIdsFresh(s, known);
      NewIdsInOrder(s[1..], known + [s[0]], a - 1, b - 1);
      OrderFresh(s, known, a, b);
    } else {
      NewIdsFresh(s, known);
      OrderFirst(s, known, b);
    }
  }

  lemma NewIdsSkip(s: seq<string>, known: seq<string>)
    requires |s| > 0 && s[0] in known
    ensures NewIds(s, known) == NewIds(s[1..], known)
  {
  }

  lemma NewIdsFresh(s: seq<string>, known: seq<string>)
    requires |s| > 0 && s[0] !in known
    ensures NewIds(s, known) == [s[0]] + NewIds(s[1..], known + [s[0]])
  {
  }

  /** An id not created by the first entry sits one further on in `s`. */
  lemma ShiftedId(s: seq<string>, known: seq<string>, r: seq<string>, i: nat)
    requires |s| > 0 && s[0] in known
    requires r == NewIds(s[1..], known) && i < |r|
    ensures r[i] in s && FirstIndex(s, r[i]) == FirstIndex(s[1..], r[i]) + 1
  {
    assert r[i] in r;
    FirstIndexTail(s, r[i]);
  }

  lemma OrderSkip(s: seq<string>, known: seq<string>, a: nat, b: nat)
    requires |s| > 0 && s[0] in known
    requires NewIds(s, known) == NewIds(s[1..], known)
    requires a < b < |NewIds(s[1..], known)|
    requires FirstIndex(s[1..], NewIds(s[1..], known)[a]) < FirstIndex(s[1..], NewIds(s[1..], known)[b])
    ensures FirstIndex(s, NewIds(s, known)[a]) < FirstIndex(s, NewIds(s, known)[b])
  {
    ShiftedId(s, known, NewIds(s[1..], known), a);
    ShiftedId(s, known, NewIds(s[1..], known), b);
  }

  lemma OrderFresh(s: seq<string>, known: seq<string>, a: nat, b: nat)
    requires |s| > 0 && s[0] !in known
    requires NewIds(s, known) == [s[0]] + NewIds(s[1..], known + [s[0]])
    requires 0 < a < b < |NewIds(s, known)|
    requires var rest := NewIds(s[1..], known + [s[0]]);
             FirstIndex(s[1..], rest[a - 1]) < FirstIndex(s[1..], rest[b - 1])
    ensures FirstIndex(s, NewIds(s, known)[a]) < FirstIndex(s, NewIds(s, known)[b])
  {
    var rest := NewIds(s[1..], known + [s[0]]);
    assert s[0] in known + [s[0]];
    ShiftedId(s, known + [s[0]], rest, a - 1);
    ShiftedId(s, known + [s[0]], rest, b - 1);
  }

  lemma OrderFirst(s: seq<string>, known: seq<string>, b: nat)
    requires |s| > 0 && s[0] !in known
    requires NewIds(s, known) == [s[0]] + NewIds(s[1..], known + [s[0]])
    requires 0 < b < |NewIds(s, known)|
    ensures FirstIndex(s, NewIds(s, known)[0]) < FirstIndex(s, NewIds(s, known)[b])
  {
    var rest := NewIds(s[1..], known + [s[0]]);
    assert s[0] in known + [s[0]];
    ShiftedId(s, known + [s[0]], rest, b - 1);
  }

  predicate Distinct(s: seq<string>)
  {
    forall i, j :: 0 <= i < j < |s| ==> s[i] != s[j]
  }
}

=== FILE: items.dfy ===
/**
 * One news item's cached record: how it starts, how an entry updates it,
 * how its sort date is resolved, and which text stands for its content.
 */
module NewsItems {
  import opened Wrappers
  import opened Values
  import Fields

  /** The record NewsItem's constructor builds for an id nothing is cached for. */
  function Fresh(id: string): (r: Record)
    ensures r.Keys == {"id", "date", "order", "content"}
    ensures r["id"] == String(id)
    ensures r["date"] == Null && r["order"] == Null && r["content"] == Null
  {
    map["id" := String(id), "date" := Null, "order" := Null, "content" := Null]
  }

  /** The keys an item's claimed date is read from, in priority order. */
  const CLAIM_KEYS: seq<string> := ["modified", "issued", "created"]

  /** The value under the first of `keys` the record holds. */
  function FirstPresent(rec: Record, keys: seq<string>): (v: Option<Value>)
    ensures v.None? <==> forall i :: 0 <= i < |keys| ==> keys[i] !in rec
    ensures v.Some? ==>
      exists i :: 0 <= i < |keys| && keys[i] in rec && rec[keys[i]] == v.value
                  && forall j :: 0 <= j < i ==> keys[j] !in rec
  {
    if |keys| == 0 then None
    else if keys[0] in rec then Some(rec[keys[0]])
    else
      var v := FirstPresent(rec, keys[1..]);
      assert forall i :: 1 <= i < |keys| ==> keys[i] == keys[1..][i - 1];
      if v.Some? then
        assert exists i :: 0 <= i < |keys| - 1 && keys[1..][i] in rec && rec[keys[1..][i]] == v.value
                           && forall j :: 0 <= j < i ==> keys[1..][j] !in rec;
        var i :| 0 <= i < |keys| - 1 && keys[1..][i] in rec && rec[keys[1..][i]] == v.value
                 && forall j :: 0 <= j < i ==> keys[1..][j] !in rec;
        assert keys[i + 1] in rec && rec[keys[i + 1]] == v.value;
        assert forall j :: 0 <= j < i + 1 ==> keys[j] !in rec;
        v
      else v
  }

  /** The date the item claims for itself: the first of modified, issued
      and created that the record holds. A key holding something other
      than a date is read as no claim. */
  function Claim(rec: Record): (c: Option<int>)
    ensures c.Some? ==>
      exists i :: 0 <= i < |CLAIM_KEYS| && CLAIM_KEYS[i] in rec && rec[CLAIM_KEYS[i]] == Date(c.value)
                  && forall j :: 0 <= j < i ==> CLAIM_KEYS[j] !in rec
    ensures (forall i :: 0 <= i < |CLAIM_KEYS| ==> CLAIM_KEYS[i] !in rec) ==> c.None?
    ensures "modified" in rec ==> c == DateIn(rec["modified"])
    ensures "modified" !in rec && "issued" in rec ==> c == DateIn(rec["issued"])
    ensures "modified" !in rec && "issued" !in rec && "created" in rec ==> c == DateIn(rec["created"])
  {
    var v := FirstPresent(rec, CLAIM_KEYS);
    assert CLAIM_KEYS[0] == "modified" && CLAIM_KEYS[1] == "issued" && CLAIM_KEYS[2] == "created";
    if v.Some? && v.value.Date? then Some(v.value.t) else None
  }

  /** The time a cached date holds; no time for any other value. */
  function DateIn(v: Value): (t: Option<int>)
    ensures t.Some? <==> v.Date?
    ensures v.Date? ==> t == Some(v.t)
  {
    if v.Date? then Some(v.t) else None
  }

  /** Bounds a claimed date by the channel's update window. A claim later
      than `updated`, or earlier than `lastUpdated` when that is known,
      becomes `updated`; so does a missing claim. */
  function Bound(claim: Option<int>, updated: int, lastUpdated: Option<int>): (d: int)
    ensures d <= updated || (claim.Some? && d == claim.value && d <= updated)
    ensures d == updated || claim == Some(d)
    ensures (claim.Some? && claim.value <= updated
             && (lastUpdated.None? || lastUpdated.value <= claim.value)) ==> d == claim.value
    ensures claim.Some? && (claim.value > updated || (lastUpdated.Some? && claim.value < lastUpdated.value))
            ==> d == updated
    ensures claim.None? ==> d == updated
  {
    if claim.None? then updated
    else if claim.value > updated then updated
    else if lastUpdated.Some? && claim.value < lastUpdated.value then updated
    else claim.value
  }

  /** NewsItem.get_date("date"): keeps a date that is already set, and
      otherwise stores the bounded claim. */
  function GetDate(rec: Record, updated: int, lastUpdated: Option<int>): (r: Record)
    ensures "date" in r && r["date"] != Null
    ensures "date" in rec && rec["date"] != Null ==> r == rec
    ensures r == rec["date" := r["date"]]
    ensures !("date" in rec && rec["date"] != Null) ==>
      && r["date"].Date?
      && r["date"].t <= updated
      && (r["date"].t == updated
          || (Claim(rec) == Some(r["date"].t)
              && (lastUpdated.None? || lastUpdated.value <= r["date"].t)))
    ensures !("date" in rec && rec["date"] != Null) && Claim(rec).Some? && Claim(rec).value <= updated
            && (lastUpdated.None? || lastUpdated.value <= Claim(rec).value)
            ==> r["date"] == Date(Claim(rec).value)
    ensures !("date" in rec && rec["date"] != Null)
            && (|| Claim(rec).None?
                || Claim(rec).value > updated
                || (lastUpdated.Some? && Claim(rec).value < lastUpdated.value))
            ==> r["date"] == Date(updated)
  {
    if "date" in rec && rec["date"] != Null then rec
    else rec["date" := Date(Bound(Claim(rec), updated, lastUpdated))]
  }

  /** A resolved date is never recomputed, whatever the window is later. */
  lemma GetDateIdempotent(rec: Record, u1: int, l1: Option<int>, u2: int, l2: Option<int>)
    ensures GetDate(GetDate(rec, u1, l1), u2, l2) == GetDate(rec, u1, l1)
  {
  }

  /** The item's "date" is unset or already a date: what every record
      the model builds satisfies. */
  predicate DateOrUnset(rec: Record)
  {
    "date" !in rec || rec["date"] == Null || rec["date"].Date?
  }

  /** NewsItem.update: copy the entry's keys, then resolve the date. */
  function Update(rec: Record, entry: Bag, updated: int, lastUpdated: Option<int>): (r: Record)
    ensures rec.Keys + {"date"} <= r.Keys
    ensures r["date"] != Null
    ensures DateOrUnset(rec) ==> r["date"].Date?
    ensures forall k :: k != "date" ==>
              && (k in r <==> k in Fields.UpdateFields(rec, entry))
              && (k in r ==> r[k] == Fields.UpdateFields(rec, entry)[k])
    ensures var copied := Fields.UpdateFields(rec, entry);
      "date" in copied && copied["date"] != Null ==> r["date"] == copied["date"]
    ensures var copied := Fields.UpdateFields(rec, entry);
      !("date" in copied && copied["date"] != Null) ==>
        r["date"] == Date(Bound(Claim(copied), updated, lastUpdated))
  {
    var copied := Fields.UpdateFields(rec, entry);
    if DateOrUnset(rec) then
      DateStaysDate(rec, entry);
      GetDate(copied, updated, lastUpdated)
    else GetDate(copied, updated, lastUpdated)
  }

  /** Copying an entry never turns an unset date or a date into another
      kind of value: the plain key "date" is ignored and "date_parsed"
      writes a date. */
  lemma DateStaysDate(rec: Record, entry: Bag)
    requires DateOrUnset(rec)
    ensures DateOrUnset(Fields.UpdateFields(rec, entry))
  {
    var writes := f => Fields.ItemWrites(f, entry);
    if i :| 0 <= i < |entry| && "date" in writes(entry[i]) {
      var last := LastWriter(entry, writes, "date", i);
      DateWriter(entry[last], entry);
      Fields.OverlayLastWriter(rec, entry, writes, last, "date");
    } else {
      Fields.OverlayFrame(rec, entry, writes, "date");
    }
  }

  /** The only key that writes `date` is `date_parsed`, and it writes a
      date. */
  lemma DateWriter(f: Field, entry: Bag)
    requires "date" in Fields.ItemWrites(f, entry)
    ensures Fields.ItemWrites(f, entry)["date"].Date?
  {
    var kind := Fields.Classify(f.key, entry, Fields.ITEM_IGNORE);
    assert kind.ParsedDate?;
  }

  /** The index of the last field that writes `k`, given one that does. */
  function LastWriter(fields: Bag, writes: Field -> map<string, Value>, k: string, i: nat): (last: nat)
    requires i < |fields| && k in writes(fields[i])
    ensures i <= last < |fields| && k in writes(fields[last])
    ensures forall j :: last < j < |fields| ==> k !in writes(fields[j])
    decreases |fields| - i
  {
    if exists j :: i < j < |fields| && k in writes(fields[j]) then
      var j :| i < j < |fields| && k in writes(fields[j]);
      LastWriter(fields, writes, k, j)
    else i
  }

  /** No key of `entry` writes `k` into the item's record. */
  predicate Untouched(entry: Bag, k: string)
  {
    forall i :: 0 <= i < |entry| ==> k !in Fields.ItemWrites(entry[i], entry)
  }

  /** An entry that carries neither `k` nor `k_parsed` leaves `k` alone,
      unless `k` is one of the names the source and content keys fill. */
  lemma NoFieldNoWrite(entry: Bag, k: string)
    requires forall i :: 0 <= i < |entry| ==> entry[i].key != k && entry[i].key != k + Fields.PARSED
    requires k !in {"source_name", "source_link", "content"}
    ensures Untouched(entry, k)
  {
    forall i | 0 <= i < |entry|
      ensures k !in Fields.ItemWrites(entry[i], entry)
    {
      var kind := Fields.Classify(entry[i].key, entry, Fields.ITEM_IGNORE);
      if kind.ParsedDate? {
        assert kind.target + Fields.PARSED == entry[i].key;
      }
    }
  }

  /** NewsItem.update leaves every key other than "date" that the entry does
      not write exactly as it was. */
  lemma UpdateKeeps(rec: Record, entry: Bag, updated: int, lastUpdated: Option<int>, k: string)
    requires k != "date" && Untouched(entry, k)
    ensures k in Update(rec, entry, updated, lastUpdated) <==> k in rec
    ensures k in rec ==> Update(rec, entry, updated, lastUpdated)[k] == rec[k]
  {
    Fields.OverlayFrame(rec, entry, f => Fields.ItemWrites(f, entry), k);
  }

  /** NewsItem.get_content: content, else tagline, else summary, else "". */
  function GetContent(rec: Record): (s: string)
    ensures Get(rec, "content") != Null ==> s == TextOf(rec["content"])
    ensures Get(rec, "content") == Null && Get(rec, "tagline") != Null ==> s == TextOf(rec["tagline"])
    ensures Get(rec, "content") == Null && Get(rec, "tagline") == Null && Get(rec, "summary") != Null
            ==> s == TextOf(rec["summary"])
    ensures Get(rec, "content") == Null && Get(rec, "tagline") == Null && Get(rec, "summary") == Null
            ==> s == ""
  {
    var keys := ["content", "tagline", "summary"];
    assert keys[0] == "content" && keys[1] == "tagline" && keys[2] == "summary";
    Values.FirstText(rec, keys)
  }

  /** A "date_parsed" key in the entry writes the item's "date" directly,
      and NewsItem.get_date then keeps it: such a date is not bounded by
      the channel's update window, even when it is later than `updated`. */
  lemma ParsedDateUnbounded(id: string, t: int, updated: int, lastUpdated: Option<int>)
    requires t > updated
    ensures Update(Fresh(id), [Field("date_parsed", Stamp(t))], updated, lastUpdated)["date"] == Date(t)
  {
    var entry := [Field("date_parsed", Stamp(t))];
    assert Fields.Classify("date_parsed", entry, Fields.ITEM_IGNORE) == Fields.ParsedDate("date");
    Fields.UpdateFieldsSets(Fresh(id), entry, 0, "date");
  }
}

=== FILE: ordering.dfy ===
/**
 * How the source's sorts compare their tuples. Python 2 compares tuples
 * element by element; strings compare byte by byte; values of different
 * types compare by type, `None` first. The sort itself is modelled as an
 * insertion sort into ascending order, which the views then reverse.
 */
module Ordering {
  import opened Values

  /** Python 2 string comparison `a <= b`: lexicographic, a proper prefix first. */
  predicate TextLe(a: string, b: string)
    decreases |a|
  {
    if |a| == 0 then true
    else if |b| == 0 then false
    else if a[0] != b[0] then a[0] < b[0]
    else TextLe(a[1..], b[1..])
  }

  lemma {:induction false} TextLeTotal(a: string, b: string)
    ensures TextLe(a, b) || TextLe(b, a)
    decreases |a|
  {
    if |a| > 0 && |b| > 0 && a[0] == b[0] {
      TextLeTotal(a[1..], b[1..]);
    }
  }

  lemma {:induction false} TextLeTrans(a: string, b: string, c: string)
    requires TextLe(a, b) && TextLe(b, c)
    ensures TextLe(a, c)
    decreases |a|
  {
    if |a| > 0 && |b| > 0 && |c| > 0 && a[0] == b[0] && b[0] == c[0] {
      TextLeTrans(a[1..], b[1..], c[1..]);
    }
  }

  /** Rank of a value's type in Python 2's mixed-type comparison:
      `None` < `str` < `tuple` (a date is a time tuple). */
  function Rank(v: Value): nat
  {
    match v
    case Null => 0
    case String(_) => 1
    case Date(_) => 2
  }

  /** `a <= b` between two cached values as Python 2 decides it. */
  predicate ValueLe(a: Value, b: Value)
  {
    if Rank(a) != Rank(b) then Rank(a) < Rank(b)
    else
      match a
      case Null => true
      case String(s) => TextLe(s, b.s)
      case Date(t) => t <= b.t
  }

  lemma ValueLeTotal(a: Value, b: Value)
    ensures ValueLe(a, b) || ValueLe(b, a)
  {
    if a.String? && b.String? {
      TextLeTotal(a.s, b.s);
    }
  }

  lemma ValueLeTrans(a: Value, b: Value, c: Value)
    requires ValueLe(a, b) && ValueLe(b, c)
    ensures ValueLe(a, c)
  {
    if a.String? && b.String? && c.String? {
      TextLeTrans(a.s, b.s, c.s);
    }
  }

  /** `a` comes before `b` at the first position where they differ. */
  predicate DiffersBelow(a: string, b: string)
  {
    exists i :: 0 <= i < |a| && i < |b| && a[..i] == b[..i] && a[i] < b[i]
  }

  lemma {:induction false} TextLeLex(a: string, b: string)
    ensures TextLe(a, b) <==> a <= b || DiffersBelow(a, b)
    decreases |a|
  {
    if |a| > 0 && |b| > 0 {
      if a[0] < b[0] {
        assert a[..0] == b[..0];
      } else if a[0] > b[0] {
        forall i | 0 < i <= |a| && i <= |b|
          ensures a[..i] != b[..i]
        {
          assert a[..i][0] != b[..i][0];
        }
      } else {
        LexTail(a, b);
        TextLeLex(a[1..], b[1..]);
      }
    }
  }

  /** Equal first characters: both the prefix test and the first
      difference are decided by the tails. */
  lemma LexTail(a: string, b: string)
    requires |a| > 0 && |b| > 0 && a[0] == b[0]
    ensures a <= b <==> a[1..] <= b[1..]
    ensures DiffersBelow(a, b) <==> DiffersBelow(a[1..], b[1..])
  {
    PrefixTail(a, b);
    if DiffersBelow(a, b) {
      var i :| 0 <= i < |a| && i < |b| && a[..i] == b[..i] && a[i] < b[i];
      DiffersDown(a, b, i);
    }
    if DiffersBelow(a[1..], b[1..]) {
      var i :| 0 <= i < |a| - 1 && i < |b| - 1 && a[1..][..i] == b[1..][..i] && a[1..][i] < b[1..][i];
      DiffersUp(a, b, i);
    }
  }

  lemma PrefixTail(a: string, b: string)
    requires |a| > 0 && |b| > 0 && a[0] == b[0]
    ensures a <= b <==> a[1..] <= b[1..]
  {
    if a[1..] <= b[1..] {
      assert a == [a[0]] + a[1..];
      assert b[..|a|] == [b[0]] + b[1..][..|a| - 1];
    }
  }

  lemma DiffersDown(a: string, b: string, i: nat)
    requires |a| > 0 && |b| > 0 && a[0] == b[0]
    requires i < |a| && i < |b| && a[..i] == b[..i] && a[i] < b[i]
    ensures DiffersBelow(a[1..], b[1..])
  {
    assert i > 0;
    assert a[1..][..i - 1] == a[..i][1..] && b[1..][..i - 1] == b[..i][1..];
    assert a[1..][i - 1] == a[i] && b[1..][i - 1] == b[i];
  }

  lemma DiffersUp(a: string, b: string, i: nat)
    requires |a| > 0 && |b| > 0 && a[0] == b[0]
    requires i < |a| - 1 && i < |b| - 1 && a[1..][..i] == b[1..][..i] && a[1..][i] < b[1..][i]
    ensures DiffersBelow(a, b)
  {
    assert a[..i + 1] == [a[0]] + a[1..][..i] && b[..i + 1] == [b[0]] + b[1..][..i];
    assert a[i + 1] == a[1..][i] && b[i + 1] == b[1..][i];
  }

  /** Python 2's comparison as the sorts meet it: `None` before any
      string, and strings in lexicographic order. */
  lemma ValueLeRules(s: string, t: string)
    ensures ValueLe(Null, String(s)) && !ValueLe(String(s), Null)
    ensures ValueLe(String(s), String(t)) <==> s <= t || DiffersBelow(s, t)
  {
    TextLeLex(s, t);
  }

  /** `order` values are decimal strings and compare as text: an item
      numbered 10 sorts below one numbered 9 on the same date. */
  lemma OrdersCompareAsText()
    ensures ValueLe(String("10"), String("9")) && !ValueLe(String("9"), String("10"))
  {
  }

  /** The leading part of a sort tuple: a time and a tie-breaking value. */
  datatype SortKey = SortKey(time: int, tie: Value)

  predicate KeyLe(a: SortKey, b: SortKey)
  {
    a.time < b.time || (a.time == b.time && ValueLe(a.tie, b.tie))
  }

  lemma KeyLeTotal(a: SortKey, b: SortKey)
    ensures KeyLe(a, b) || KeyLe(b, a)
  {
    ValueLeTotal(a.tie, b.tie);
  }

  lemma KeyLeTrans(a: SortKey, b: SortKey, c: SortKey)
    requires KeyLe(a, b) && KeyLe(b, c)
    ensures KeyLe(a, c)
  {
    if a.time == b.time == c.time {
      ValueLeTrans(a.tie, b.tie, c.tie);
    }
  }

  /** Each element's key is at most the next one's. */
  predicate Ascending<T>(s: seq<T>, key: T -> SortKey)
  {
    forall i :: 0 <= i < |s| - 1 ==> KeyLe(key(s[i]), key(s[i + 1]))
  }

  /** Each element's key is at least the next one's: newest first. */
  predicate Descending<T>(s: seq<T>, key: T -> SortKey)
  {
    forall i :: 0 <= i < |s| - 1 ==> KeyLe(key(s[i + 1]), key(s[i]))
  }

  /** Inserts `x` into an ascending sequence. */
  function Insert<T>(x: T, s: seq<T>, key: T -> SortKey): (r: seq<T>)
    requires Ascending(s, key)
    ensures Ascending(r, key)
    ensures multiset(r) == multiset(s) + multiset{x}
    ensures |r| == |s| + 1
    ensures r[0] == x || (|s| > 0 && r[0] == s[0])
  {
    if |s| == 0 then [x]
    else if KeyLe(key(x), key(s[0])) then [x] + s
    else
      KeyLeTotal(key(x), key(s[0]));
      var rest := Insert(x, s[1..], key);
      assert s == [s[0]] + s[1..];
      [s[0]] + rest
  }

  /** `list.sort()` on the keys: an ascending permutation of `s`. */
  function Sort<T>(s: seq<T>, key: T -> SortKey): (r: seq<T>)
    ensures Ascending(r, key)
    ensures multiset(r) == multiset(s)
    ensures |r| == |s|
  {
    if |s| == 0 then []
    else
      assert s == [s[0]] + s[1..];
      Insert(s[0], Sort(s[1..], key), key)
  }

  /** `list.reverse()`. */
  function Reverse<T>(s: seq<T>): (r: seq<T>)
    ensures |r| == |s|
    ensures forall i :: 0 <= i < |s| ==> r[i] == s[|s| - 1 - i]
    ensures multiset(r) == multiset(s)
  {
    if |s| == 0 then []
    else
      assert s == s[..|s| - 1] + [s[|s| - 1]];
      [s[|s| - 1]] + Reverse(s[..|s| - 1])
  }

  lemma ReverseAscending<T>(s: seq<T>, key: T -> SortKey)
    requires Ascending(s, key)
    ensures Descending(Reverse(s), key)
  {
    var r := Reverse(s);
    forall i | 0 <= i < |r| - 1
      ensures KeyLe(key(r[i + 1]), key(r[i]))
    {
      assert r[i + 1] == s[|s| - 2 - i] && r[i] == s[|s| - 1 - i];
    }
  }

  /** In a descending sequence every later key is at most every earlier one. */
  lemma {:induction false} DescendingAll<T>(s: seq<T>, key: T -> SortKey, i: nat, j: nat)
    requires Descending(s, key)
    requires i <= j < |s|
    ensures KeyLe(key(s[j]), key(s[i]))
    decreases j - i
  {
    if i == j {
      ValueLeTotal(key(s[i]).tie, key(s[i]).tie);
    } else {
      DescendingAll(s, key, i + 1, j);
      KeyLeTrans(key(s[j]), key(s[i + 1]), key(s[i]));
    }
  }
}

=== FILE: orders.dfy ===
/**
 * Step four of Channel.update_entries: the items created by an update
 * are numbered from the channel's `next_order` counter, in reverse feed
 * order, so the first-in-feed item gets the largest number.
 */
module Orders {
  import opened Wrappers
  import opened Values
  import Decimal
  import opened Channels
  import opened Identity

  /** `int(self.next_order)`: the counter, when it is a decimal string. */
  function Counter(info: Record): (n: Option<nat>)
    ensures n.Some? <==> "next_order" in info && Decimal.Parse(TextOf(info["next_order"])).Some?
                         && info["next_order"].String?
    ensures n.Some? ==> Decimal.Parse(info["next_order"].s) == n
  {
    if "next_order" in info && info["next_order"].String? then Decimal.Parse(info["next_order"].s) else None
  }

  /** The order value an item gets from counter value `m`: `str(m)`. */
  function OrderValue(m: nat): Value
  {
    String(Decimal.Show(m))
  }

  /** Gives the item filed under `id` the order value `v`. */
  function SetOrder(items: seq<Item>, id: string, v: Value): (r: seq<Item>)
    ensures |r| == |items|
    ensures forall i :: 0 <= i < |items| ==> r[i].id == items[i].id
    ensures forall i :: 0 <= i < |items| && items[i].id != id ==> r[i] == items[i]
    ensures forall i :: 0 <= i < |items| && items[i].id == id ==> r[i].rec == items[i].rec["order" := v]
  {
    seq(|items|, i requires 0 <= i < |items| =>
      if items[i].id == id then Item(id, items[i].rec["order" := v]) else items[i])
  }

  /** `out` is `items` with the k ids of `created` numbered down from
      `top + k`: the j-th created id, in feed order, gets top + k - j,
      and every other item is unchanged. */
  predicate Renumbered(items: seq<Item>, created: seq<string>, top: nat, out: seq<Item>)
  {
    && |out| == |items|
    && (forall i :: 0 <= i < |items| ==> out[i].id == items[i].id)
    && (forall i :: 0 <= i < |items| && items[i].id !in created ==> out[i] == items[i])
    && (forall i, j :: 0 <= i < |items| && 0 <= j < |created| && items[i].id == created[j] ==>
          out[i].rec == items[i].rec["order" := OrderValue(top + |created| - j)])
  }

  /** The numbering loop. The source reverses `new_items` and walks it
      forward, each item taking the counter plus one; walking `created`
      from the back takes the same steps in the same order. */
  function Number(items: seq<Item>, created: seq<string>, next: nat): (r: seq<Item>)
    requires Distinct(created)
    ensures Renumbered(items, created, next, r)
    decreases |created|
  {
    if |created| == 0 then items
    else
      var k := |created|;
      assert forall j :: 0 <= j < k - 1 ==> created[..k - 1][j] == created[j];
      var set1 := SetOrder(items, created[k - 1], OrderValue(next + 1));
      var r := Number(set1, created[..k - 1], next + 1);
      NumberStep(items, created, next, set1, r);
      r
  }

  /** One step of the loop: numbering the last created id with the
      counter plus one, then the rest from there, numbers them all. */
  lemma NumberStep(items: seq<Item>, created: seq<string>, next: nat, set1: seq<Item>, r: seq<Item>)
    requires Distinct(created) && |created| > 0
    requires set1 == SetOrder(items, created[|created| - 1], OrderValue(next + 1))
    requires Renumbered(set1, created[..|created| - 1], next + 1, r)
    ensures Renumbered(items, created, next, r)
  {
    var k := |created|;
    var front := created[..k - 1];
    var last := created[k - 1];
    assert forall j :: 0 <= j < k - 1 ==> front[j] == created[j];
    forall i | 0 <= i < |items| && items[i].id !in created
      ensures r[i] == items[i]
    {
      assert items[i].id !in front;
    }
    forall i, j | 0 <= i < |items| && 0 <= j < k && items[i].id == created[j]
      ensures r[i].rec == items[i].rec["order" := OrderValue(next + k - j)]
    {
      if j < k - 1 {
        assert created[j] != last;
        assert set1[i] == items[i];
        assert items[i].id == front[j];
        assert next + 1 + (k - 1) - j == next + k - j;
      } else {
        assert items[i].id !in front by {
          forall m | 0 <= m < k - 1
            ensures front[m] != last
          {
            assert front[m] == created[m];
          }
        }
        assert set1[i].id == items[i].id;
      }
    }
  }

  /** The order-assignment loop of update_entries. With k created items
      and counter n, the j-th created item in feed order gets n + k - j,
      the counter ends at n + k, and every other item is untouched. The
      counter is read only when something was created; a counter that is
      not a decimal string makes the source raise. */
  function AssignOrders(items: seq<Item>, created: seq<string>, info: Record): (r: Result<(seq<Item>, Record)>)
    requires Distinct(created)
    ensures r.Err? <==> |created| > 0 && Counter(info).None?
    ensures r.Ok? && |created| == 0 ==> r.value == (items, info)
    ensures r.Ok? && |created| > 0 ==>
              && Renumbered(items, created, Counter(info).value, r.value.0)
              && r.value.1 == info["next_order" := OrderValue(Counter(info).value + |created|)]
  {
    if |created| == 0 then Ok((items, info))
    else
      match Counter(info)
      case None => Err("next_order is not a decimal string")
      case Some(n) =>
        Ok((Number(items, created, n), info["next_order" := OrderValue(n + |created|)]))
  }
}

=== FILE: planet.dfy ===
/**
 * The planet: a set of channels, and the aggregate views over them
 * (Planet.channels and Planet.items).
 */
module Planets {
  import opened Wrappers
  import opened Values
  import opened Ordering
  import NewsItems
  import opened Channels

  /** The length of a day in seconds, which the max_days window is meant
      to count in. */
  const DAY := 86400

  /** The day length the max_days window is computed with as written: the
      digits of 86400 transposed, thirty minutes short. */
  const WRITTEN_DAY := 84600

  /** A planet: its subscribed channels in subscription order, and its
      own filter pattern, if any. */
  datatype Planet = Planet(channels: seq<Channel>, filter: Option<string>)

  predicate ChannelHidden(c: Channel)
  {
    "hidden" in c.info
  }

  /** Whether a view asked for with `hidden` lists the channel. */
  predicate Listed(c: Channel, hidden: bool)
  {
    hidden || !ChannelHidden(c)
  }

  /** The channel's sort tuple: its `name` attribute, which the cache reads
      through Channel.get_name, so a channel without a name sorts by its
      title, and one with neither by the empty string. */
  function NameKey(c: Channel): SortKey
  {
    SortKey(0, String(GetName(c.info)))
  }

  /** The listed channels, in subscription order. */
  function ListedChannels(chans: seq<Channel>, hidden: bool): (r: seq<Channel>)
    ensures forall c :: c in r <==> c in chans && Listed(c, hidden)
    ensures hidden ==> r == chans
    ensures |r| <= |chans|
  {
    if |chans| == 0 then []
    else
      var rest := ListedChannels(chans[1..], hidden);
      assert forall c :: c in chans <==> c == chans[0] || c in chans[1..];
      if Listed(chans[0], hidden) then [chans[0]] + rest else rest
  }

  /** Planet.channels: the listed channels, by name when `sorted`. */
  function ChannelList(p: Planet, hidden: bool, sorted: bool): (r: seq<Channel>)
    ensures multiset(r) == multiset(ListedChannels(p.channels, hidden))
    ensures forall c :: c in r <==> c in p.channels && Listed(c, hidden)
    ensures sorted ==> Ascending(r, NameKey)
    ensures sorted ==> forall i :: 0 <= i < |r| - 1 ==> TextLe(GetName(r[i].info), GetName(r[i + 1].info))
    ensures !sorted ==> r == ListedChannels(p.channels, hidden)
  {
    var listed := ListedChannels(p.channels, hidden);
    if sorted then
      var r := Sort(listed, NameKey);
      assert forall c :: c in r <==> c in multiset(r);
      assert forall c :: c in listed <==> c in multiset(listed);
      r
    else listed
  }

  /** An item in an aggregate view, with the URL of its channel. */
  datatype Post = Post(url: string, item: Item)

  function PostKey(x: Post): SortKey
  {
    ItemKey(x.item)
  }

  /** A channel's `filter`, when it is a non-empty string. */
  function ChannelPattern(v: Value): (r: Option<string>)
    ensures r.Some? <==> v.String? && v.s != ""
    ensures r.Some? ==> r.value == v.s
  {
    if v.String? && v.s != "" then Some(v.s) else None
  }

  /** Whether a pattern in force finds a match in the title or the content. */
  predicate Passes(pattern: Option<string>, title: string, content: string, search: (string, string) -> bool)
  {
    pattern.None? || search(pattern.value, title) || search(pattern.value, content)
  }

  /** The item's title, or the empty string. */
  function Title(it: Item): string
  {
    TextOf(Get(it.rec, "title"))
  }

  /** Whether Planet.items takes the item of channel `c`: it is listed,
      and both the planet's and the channel's filter let it through. */
  predicate Admits(p: Planet, c: Channel, it: Item, hidden: bool, search: (string, string) -> bool)
  {
    && Shown(it, hidden)
    && Passes(NonEmpty(p.filter), Title(it), NewsItems.GetContent(it.rec), search)
    && Passes(ChannelPattern(Get(c.info, "filter")), Title(it), NewsItems.GetContent(it.rec), search)
  }

  /** Planet.items takes an item exactly when it is shown and each filter
      set to a non-empty string, the planet's and then the channel's,
      finds a match in its title or its content. */
  lemma AdmitsExactly(p: Planet, c: Channel, it: Item, hidden: bool, search: (string, string) -> bool)
    ensures Admits(p, c, it, hidden, search) <==>
      && Shown(it, hidden)
      && (p.filter.Some? && p.filter.value != "" ==>
            search(p.filter.value, Title(it)) || search(p.filter.value, NewsItems.GetContent(it.rec)))
      && (Get(c.info, "filter").String? && Get(c.info, "filter").s != "" ==>
            search(Get(c.info, "filter").s, Title(it))
            || search(Get(c.info, "filter").s, NewsItems.GetContent(it.rec)))
  {
  }

  /** The admitted items of one channel, in dictionary order. */
  function FromChannel(p: Planet, c: Channel, items: seq<Item>, hidden: bool, search: (string, string) -> bool): (r: seq<Post>)
    ensures forall x :: x in r <==> x.url == c.url && x.item in items && Admits(p, c, x.item, hidden, search)
  {
    if |items| == 0 then []
    else
      var rest := FromChannel(p, c, items[1..], hidden, search);
      assert forall it :: it in items <==> it == items[0] || it in items[1..];
      if Admits(p, c, items[0], hidden, search) then [Post(c.url, items[0])] + rest else rest
  }

  /** Whether some listed channel of `chans` admits the post. */
  predicate Offered(p: Planet, chans: seq<Channel>, x: Post, hidden: bool, search: (string, string) -> bool)
  {
    exists c :: c in chans && Listed(c, hidden) && x.url == c.url && x.item in c.items
                && Admits(p, c, x.item, hidden, search)
  }

  /** The gathering loop over the listed channels. */
  function Gather(p: Planet, chans: seq<Channel>, hidden: bool, search: (string, string) -> bool): (r: seq<Post>)
    ensures forall x :: x in r <==> Offered(p, chans, x, hidden, search)
  {
    if |chans| == 0 then []
    else
      var c := chans[0];
      var here := if Listed(c, hidden) then FromChannel(p, c, c.items, hidden, search) else [];
      var rest := Gather(p, chans[1..], hidden, search);
      assert forall d :: d in chans <==> d == c || d in chans[1..];
      here + rest
  }

  /** Every item a view would list carries a date, which the source needs
      to build its sort tuple. */
  predicate Dateable(p: Planet, hidden: bool)
  {
    forall c :: c in p.channels && Listed(c, hidden) ==> Sortable(c.items, hidden)
  }

  /** The gathered posts, newest first by (date, order) when `sorted`. */
  function Ordered(p: Planet, hidden: bool, sorted: bool, search: (string, string) -> bool): (r: seq<Post>)
    ensures multiset(r) == multiset(Gather(p, p.channels, hidden, search))
    ensures forall x :: x in r <==> Offered(p, p.channels, x, hidden, search)
    ensures sorted ==> Descending(r, PostKey)
  {
    var all := Gather(p, p.channels, hidden, search);
    if sorted then
      var s := Sort(all, PostKey);
      ReverseAscending(s, PostKey);
      var r := Reverse(s);
      assert forall x :: x in r <==> x in multiset(r);
      assert forall x :: x in all <==> x in multiset(all);
      r
    else all
  }

  /** The max_items cap: none when `m` is zero, otherwise `items[:m]`
      with Python's meaning for a negative bound. */
  function Cap<T>(s: seq<T>, m: int): (r: seq<T>)
    ensures r <= s
    ensures m == 0 ==> r == s
    ensures 0 < m ==> |r| == (if m < |s| then m else |s|)
    ensures m < 0 ==> |r| == (if |s| + m > 0 then |s| + m else 0)
  {
    if m == 0 then s
    else if m > 0 then (if m < |s| then s[..m] else s)
    else if |s| + m > 0 then s[..|s| + m] else []
  }

  /** How many leading posts are newer than `floor`. */
  function Within(s: seq<Post>, floor: int): (k: nat)
    ensures k <= |s|
    ensures forall i :: 0 <= i < k ==> Time(s[i].item) > floor
    ensures k < |s| ==> Time(s[k].item) <= floor
  {
    if |s| == 0 || Time(s[0].item) <= floor then 0
    else
      var k := Within(s[1..], floor);
      assert forall i :: 1 <= i <= k ==> s[i] == s[1..][i - 1];
      1 + k
  }

  /** The max_days window counted in days of `day` seconds: the longest
      prefix whose posts are newer than the first one's time less `days`
      such days. */
  function DayWindow(s: seq<Post>, days: int, day: int): (r: seq<Post>)
    ensures r <= s
    ensures |s| == 0 || days == 0 ==> r == s
    ensures |s| > 0 && days != 0 ==>
              && (forall i :: 0 <= i < |r| ==> Time(r[i].item) > Time(s[0].item) - days * day)
              && (|r| < |s| ==> Time(s[|r|].item) <= Time(s[0].item) - days * day)
  {
    if |s| == 0 || days == 0 then s
    else s[..Within(s, Time(s[0].item) - days * day)]
  }

  /** A post dated `t`. */
  function PostAt(t: int): (x: Post)
    ensures Dated(x.item) && Time(x.item) == t
  {
    Post("", Item("", map["date" := Date(t)]))
  }

  /** The window as written drops a post that is less than one day older
      than the newest: with one day asked for, a post 85000 seconds older
      falls outside the 84600-second window. */
  lemma WrittenWindowTooShort()
    ensures var s := [PostAt(100000), PostAt(15000)];
            && Descending(s, PostKey)
            && Time(s[0].item) - Time(s[1].item) < 1 * DAY
            && s[1] !in DayWindow(s, 1, WRITTEN_DAY)
            && s[1] in DayWindow(s, 1, DAY)
  {
    var s := [PostAt(100000), PostAt(15000)];
    assert KeyLe(PostKey(s[1]), PostKey(s[0]));
    assert Within(s, 100000 - WRITTEN_DAY) == 1 by {
      assert Within(s[1..], 100000 - WRITTEN_DAY) == 0;
    }
    assert DayWindow(s, 1, WRITTEN_DAY) == [s[0]];
    assert Within(s, 100000 - DAY) == 2 by {
      assert s[1..][1..] == [];
      assert Within(s[1..], 100000 - DAY) == 1;
    }
  }

  /** A prefix of a listing keeps its properties: each post is offered
      and dated, and the order is kept. */
  lemma PrefixFacts(p: Planet, hidden: bool, sorted: bool, search: (string, string) -> bool, r: seq<Post>)
    requires Dateable(p, hidden)
    requires r <= Ordered(p, hidden, sorted, search)
    ensures forall x :: x in r ==> Offered(p, p.channels, x, hidden, search) && Dated(x.item)
    ensures sorted ==> Descending(r, PostKey)
  {
    var all := Ordered(p, hidden, sorted, search);
    forall x | x in r
      ensures Offered(p, p.channels, x, hidden, search) && Dated(x.item)
    {
      var i :| 0 <= i < |r| && r[i] == x;
      assert all[i] == x;
      assert Offered(p, p.channels, x, hidden, search);
      var c :| c in p.channels && Listed(c, hidden) && x.url == c.url && x.item in c.items
               && Admits(p, c, x.item, hidden, search);
      assert Sortable(c.items, hidden) && Shown(x.item, hidden);
    }
    if sorted {
      forall i | 0 <= i < |r| - 1 ensures KeyLe(PostKey(r[i + 1]), PostKey(r[i])) {
        assert r[i] == all[i] && r[i + 1] == all[i + 1];
      }
    }
  }

  /** Planet.items. Lists what the listed channels admit, sorts it newest
      first when `sorted`, caps it at `maxItems`, then keeps the window of
      `maxDays` days of `day` seconds: the source's call is
      `day == WRITTEN_DAY`, the evidently intended one `day == DAY`. */
  function Items(p: Planet, hidden: bool, sorted: bool, maxItems: int, maxDays: int, day: int,
                 search: (string, string) -> bool): (r: seq<Post>)
    requires Dateable(p, hidden)
    ensures forall x :: x in r ==> Offered(p, p.channels, x, hidden, search) && Dated(x.item)
    ensures sorted ==> Descending(r, PostKey)
    ensures maxItems > 0 ==> |r| <= maxItems
    ensures maxDays == 0 ==> r == Cap(Ordered(p, hidden, sorted, search), maxItems)
    ensures maxItems == 0 && maxDays == 0 ==> r == Ordered(p, hidden, sorted, search)
    ensures var s := Cap(Ordered(p, hidden, sorted, search), maxItems);
            && r <= s
            && (|s| > 0 && maxDays != 0 ==>
                  && (forall i :: 0 <= i < |r| ==> Time(r[i].item) > Time(s[0].item) - maxDays * day)
                  && (|r| < |s| ==> Time(s[|r|].item) <= Time(s[0].item) - maxDays * day))
  {
    var all := Ordered(p, hidden, sorted, search);
    var r := DayWindow(Cap(all, maxItems), maxDays, day);
    PrefixFacts(p, hidden, sorted, search, r);
    r
  }

  /** On a listing sorted newest first, the max_days window is a filter:
      it keeps exactly the posts newer than the cut-off. */
  lemma WindowIsFilter(s: seq<Post>, days: int, day: int, x: Post)
    requires Descending(s, PostKey)
    requires |s| > 0 && days != 0
    ensures x in DayWindow(s, days, day) <==> x in s && Time(x.item) > Time(s[0].item) - days * day
  {
    var r := DayWindow(s, days, day);
    var floor := Time(s[0].item) - days * day;
    if x in s && Time(x.item) > floor {
      var j :| 0 <= j < |s| && s[j] == x;
      if |r| <= j {
        DescendingAll(s, PostKey, |r|, j);
      } else {
        assert r[j] == x;
      }
    }
  }

  /** Planet.items with no item cap, sorted, and a day window: a post is
      listed exactly when some listed channel admits it and it is newer
      than the newest post's time less `maxDays` days of `day` seconds. */
  lemma ItemsFilter(p: Planet, hidden: bool, maxDays: int, day: int, search: (string, string) -> bool, x: Post)
    requires Dateable(p, hidden)
    requires maxDays != 0
    ensures var all := Ordered(p, hidden, true, search);
            |all| > 0 ==>
              (x in Items(p, hidden, true, 0, maxDays, day, search) <==>
                 Offered(p, p.channels, x, hidden, search) && Time(x.item) > Time(all[0].item) - maxDays * day)
  {
    var all := Ordered(p, hidden, true, search);
    if |all| > 0 {
      WindowIsFilter(all, maxDays, day, x);
    }
  }

  /** With true days, the sorted, uncapped view keeps every admitted post
      less than `maxDays` days older than the newest one, and only those. */
  lemma ItemsWithinDays(p: Planet, hidden: bool, maxDays: int, search: (string, string) -> bool, x: Post)
    requires Dateable(p, hidden)
    requires maxDays > 0
    requires Offered(p, p.channels, x, hidden, search)
    ensures var all := Ordered(p, hidden, true, search);
            && |all| > 0
            && (x in Items(p, hidden, true, 0, maxDays, DAY, search) <==>
                  Time(all[0].item) - Time(x.item) < maxDays * DAY)
  {
    var all := Ordered(p, hidden, true, search);
    assert x in all;
    ItemsFilter(p, hidden, maxDays, DAY, search, x);
  }
}

=== FILE: reconcile.dfy ===
/**
 * Channel.update_entries as a whole: stamp the channel's clock, run the
 * entry loop, number the created items, expire what the feed dropped.
 */
module Reconcile {
  import opened Wrappers
  import opened Values
  import Decimal
  import NewsItems
  import opened Channels
  import opened Identity
  import opened Absorption
  import Orders
  import Expiry

  /** The channel's clock once an update starts: `updated` is now, and
      the previous `updated` becomes `last_updated`. A previous value
      that is not a date imposes no lower bound; only None marks first
      sight. */
  function Clock(prev: Value, now: int): (w: Window)
    ensures w.updated == now
    ensures w.firstSight <==> prev == Null
    ensures w.lastUpdated.Some? <==> prev.Date?
    ensures w.lastUpdated.Some? ==> w.lastUpdated.value == prev.t
  {
    Window(now, if prev.Date? then Some(prev.t) else None, prev == Null)
  }

  /** The channel record once the clock is stamped. */
  function Stamp(info: Record, now: int): (r: Record)
    ensures r.Keys == info.Keys + {"updated", "last_updated"}
    ensures r["updated"] == Date(now) && r["last_updated"] == Get(info, "updated")
    ensures forall k :: k in info && k != "updated" && k != "last_updated" ==> r[k] == info[k]
  {
    info["last_updated" := Get(info, "updated")]["updated" := Date(now)]
  }

  /** Stamping the clock leaves the order counter alone. */
  lemma CounterStamp(info: Record, now: int)
    ensures Orders.Counter(Stamp(info, now)) == Orders.Counter(info)
  {
    var r := Stamp(info, now);
    assert ("next_order" in r <==> "next_order" in info);
    assert "next_order" in info ==> r["next_order"] == info["next_order"];
  }

  /** The channel's items, record and `feed_items` just before expiry. */
  datatype Staged = Staged(items: seq<Item>, info: Record, seen: seq<string>)

  /** The entry loop over a channel's items, from an empty pass. */
  function Loop(c: Channel, entries: seq<Bag>, now: int, n: int, digest: string -> string): Result<Pass>
  {
    AbsorbAll(Pass(c.items, [], []), entries, c.url, Clock(Get(c.info, "updated"), now), n, digest)
  }

  /** The entry loop's result, in the terms the later steps need. */
  lemma LoopFacts(c: Channel, entries: seq<Bag>, now: int, n: int, digest: string -> string)
    requires Valid(c)
    requires Loop(c, entries, now, n, digest).Ok?
    ensures var p := Loop(c, entries, now, n, digest).value;
      var s := SeenIds(entries, c.url, digest);
      && UniqueIds(p.items)
      && Sortable(p.items, false)
      && p.seen == s
      && p.created == NewIds(s, Ids(c.items))
      && Ids(p.items) == Ids(c.items) + NewIds(s, Ids(c.items))
      && |c.items| <= |p.items|
      && (forall i :: 0 <= i < |c.items| ==> Grows(c.items[i], p.items[i]))
  {
    var w := Clock(Get(c.info, "updated"), now);
    var p0 := Pass(c.items, [], []);
    var p := Loop(c, entries, now, n, digest).value;
    AbsorbAllIds(p0, entries, c.url, w, n, digest);
    AbsorbAllGrows(p0, entries, c.url, w, n, digest);
    var s := SeenIds(entries, c.url, digest);
    assert [] + s == s && [] + NewIds(s, Ids(c.items)) == NewIds(s, Ids(c.items));
    forall x | x in p.items && Shown(x, false)
      ensures Dated(x)
    {
      var i :| 0 <= i < |p.items| && p.items[i] == x;
      if i < |c.items| {
        assert Grows(c.items[i], x);
        assert c.items[i] in c.items;
      }
    }
  }

  /** An item the order step leaves alone outside `order`. */
  lemma OrderFacts(items: seq<Item>, created: seq<string>, info: Record)
    requires Distinct(created)
    requires Orders.AssignOrders(items, created, info).Ok?
    ensures var r := Orders.AssignOrders(items, created, info).value.0;
      && |r| == |items|
      && (forall i :: 0 <= i < |items| ==> r[i].id == items[i].id)
      && (forall i, k :: 0 <= i < |items| && k != "order" ==> SameAt(items[i].rec, r[i].rec, k))
  {
    var r := Orders.AssignOrders(items, created, info).value.0;
    if |created| > 0 {
      var top := Orders.Counter(info).value;
      assert Orders.Renumbered(items, created, top, r);
      forall i, k | 0 <= i < |items| && k != "order"
        ensures SameAt(items[i].rec, r[i].rec, k)
      {
        if items[i].id in created {
          var j :| 0 <= j < |created| && created[j] == items[i].id;
          assert r[i].rec == items[i].rec["order" := Orders.OrderValue(top + |created| - j)];
        }
      }
    }
  }

  /** An item the order step did not create is passed through as it was. */
  lemma AssignSkips(items: seq<Item>, created: seq<string>, info: Record, i: nat)
    requires Distinct(created)
    requires Orders.AssignOrders(items, created, info).Ok?
    requires i < |Orders.AssignOrders(items, created, info).value.0|
    requires Orders.AssignOrders(items, created, info).value.0[i].id !in created
    ensures i < |items| && Orders.AssignOrders(items, created, info).value.0[i] == items[i]
  {
  }

  /** The j-th created item gets the counter plus k - j. */
  lemma AssignedAt(items: seq<Item>, created: seq<string>, info: Record, i: nat, j: nat, top: nat, k: nat,
                   out: seq<Item>)
    requires Distinct(created)
    requires Orders.AssignOrders(items, created, info).Ok?
    requires out == Orders.AssignOrders(items, created, info).value.0
    requires i < |out|
    requires j < |created| && out[i].id == created[j]
    requires Orders.Counter(info).Some? ==> Orders.Counter(info).value == top
    requires k == |created|
    ensures Orders.Counter(info).Some?
    ensures Get(out[i].rec, "order") == Orders.OrderValue(top + k - j)
  {
    assert Orders.Renumbered(items, created, top, out);
    assert items[i].id == created[j];
    assert out[i].rec == items[i].rec["order" := Orders.OrderValue(top + |created| - j)];
  }

  /** The counter the order step leaves: the same when nothing was
      created, otherwise k higher. */
  lemma AssignCounter(items: seq<Item>, created: seq<string>, info: Record, out: seq<Item>, oinfo: Record,
                      cinfo: Record, top: nat, k: nat)
    requires Distinct(created)
    requires Orders.AssignOrders(items, created, info) == Ok((out, oinfo))
    requires Orders.Counter(info) == Orders.Counter(cinfo)
    requires Orders.Counter(cinfo).Some? ==> Orders.Counter(cinfo).value == top
    requires k == |created|
    ensures k == 0 ==> Orders.Counter(oinfo) == Orders.Counter(cinfo)
    ensures k > 0 ==> Orders.Counter(cinfo).Some? && Get(oinfo, "next_order") == Orders.OrderValue(top + k)
  {
  }

  /** Steps one to four: everything update_entries does before expiry. */
  function Stage(c: Channel, entries: seq<Bag>, now: int, n: int, digest: string -> string): (r: Result<Staged>)
    requires Valid(c)
    ensures r.Ok? ==> UniqueIds(r.value.items) && Sortable(r.value.items, false)
    ensures r.Ok? ==> r.value.seen == SeenIds(entries, c.url, digest)
  {
    var p :- Loop(c, entries, now, n, digest);
    LoopFacts(c, entries, now, n, digest);
    var numbered :- Orders.AssignOrders(p.items, p.created, Stamp(c.info, now));
    NumberedShape(p.items, p.created, Stamp(c.info, now));
    Ok(Staged(numbered.0, numbered.1, p.seen))
  }

  /** The order step keeps the ids, and keeps the items sortable. */
  lemma NumberedShape(items: seq<Item>, created: seq<string>, info: Record)
    requires Distinct(created)
    requires Orders.AssignOrders(items, created, info).Ok?
    ensures var out := Orders.AssignOrders(items, created, info).value.0;
      && Ids(out) == Ids(items)
      && (Sortable(items, false) ==> Sortable(out, false))
  {
    var out := Orders.AssignOrders(items, created, info).value.0;
    OrderFacts(items, created, info);
    assert Ids(out) == Ids(items);
    if Sortable(items, false) {
      forall x | x in out && Shown(x, false)
        ensures Dated(x)
      {
        var i :| 0 <= i < |out| && out[i] == x;
        assert SameAt(items[i].rec, x.rec, "hidden") && SameAt(items[i].rec, x.rec, "date");
        assert items[i] in items;
      }
    }
  }

  /** The staged items are the channel's, then the snapshot's new ids;
      staging fails on an unreadable id, or on a created item with no
      decimal counter. */
  lemma StageFacts(c: Channel, entries: seq<Bag>, now: int, n: int, digest: string -> string)
    requires Valid(c)
    ensures var r := Stage(c, entries, now, n, digest);
      var s := SeenIds(entries, c.url, digest);
      && (r.Ok? ==> Ids(r.value.items) == Ids(c.items) + NewIds(s, Ids(c.items)))
      && (r.Err? <==> !AllReadable(entries, c.url, digest)
                      || (|NewIds(s, Ids(c.items))| > 0 && Orders.Counter(c.info).None?))
  {
    var r := Stage(c, entries, now, n, digest);
    CounterStamp(c.info, now);
    if Loop(c, entries, now, n, digest).Ok? {
      var p := Loop(c, entries, now, n, digest).value;
      LoopFacts(c, entries, now, n, digest);
      if r.Ok? {
        var numbered := Orders.AssignOrders(p.items, p.created, Stamp(c.info, now)).value;
        assert Ids(numbered.0) == Ids(p.items);
      }
    }
  }

  /** What one update_entries call leaves: the channel, and the items it
      expired (the source's `_expired`). */
  datatype Reconciled = Reconciled(channel: Channel, expired: seq<Item>)

  /** Channel.update_entries. An empty snapshot changes nothing; an entry
      whose id cannot be read, or a counter that is not a decimal string
      when an item was created, is an error. */
  function UpdateEntries(c: Channel, entries: seq<Bag>, now: int, n: int, digest: string -> string): (r: Result<Reconciled>)
    requires Valid(c)
    ensures |entries| == 0 ==> r == Ok(Reconciled(c, []))
    ensures r.Ok? ==> Valid(r.value.channel)
    ensures r.Ok? ==> r.value.channel.url == c.url && r.value.channel.etag == c.etag
                      && r.value.channel.modified == c.modified
    ensures r.Ok? && |entries| > 0 ==>
              Get(r.value.channel.info, "updated") == Date(now)
              && Get(r.value.channel.info, "last_updated") == Get(c.info, "updated")
  {
    if |entries| == 0 then Ok(Reconciled(c, []))
    else
      var s :- Stage(c, entries, now, n, digest);
      var (kept, gone) := Expiry.Expire(s.items, s.seen);
      Ok(Reconciled(Channel(c.url, c.etag, c.modified, s.info, kept), gone))
  }

  lemma IdsMember(items: seq<Item>, id: string)
    ensures id in Ids(items) <==> exists x :: x in items && x.id == id
  {
    if id in Ids(items) {
      var i :| 0 <= i < |items| && Ids(items)[i] == id;
      assert items[i] in items;
    }
    if exists x :: x in items && x.id == id {
      var x :| x in items && x.id == id;
      var i :| 0 <= i < |items| && items[i] == x;
      assert Ids(items)[i] == id;
    }
  }

  /** When update_entries fails: an entry whose id cannot be read, or a
      created item with no decimal counter to number it from. */
  lemma UpdateEntriesFails(c: Channel, entries: seq<Bag>, now: int, n: int, digest: string -> string)
    requires Valid(c)
    ensures UpdateEntries(c, entries, now, n, digest).Err? <==>
              |entries| > 0
              && (!AllReadable(entries, c.url, digest)
                  || (|NewIds(SeenIds(entries, c.url, digest), Ids(c.items))| > 0 && Orders.Counter(c.info).None?))
  {
    StageFacts(c, entries, now, n, digest);
  }

  /** No item the snapshot delivered is lost: each id in `feed_items` is
      an item of the channel afterwards. */
  lemma UpdateEntriesKeepsSeen(c: Channel, entries: seq<Bag>, now: int, n: int, digest: string -> string, id: string)
    requires Valid(c)
    requires UpdateEntries(c, entries, now, n, digest).Ok?
    requires id in SeenIds(entries, c.url, digest)
    ensures id in Ids(UpdateEntries(c, entries, now, n, digest).value.channel.items)
  {
    var r := UpdateEntries(c, entries, now, n, digest).value;
    var st := Stage(c, entries, now, n, digest).value;
    var seen := SeenIds(entries, c.url, digest);
    StageFacts(c, entries, now, n, digest);
    assert id in Ids(c.items) + NewIds(seen, Ids(c.items));
    IdsMember(st.items, id);
    var x :| x in st.items && x.id == id;
    var (kept, gone) := Expiry.Expire(st.items, st.seen);
    assert x in kept;
    IdsMember(kept, id);
  }

  /** The expired items: each was an item of the channel before the
      update, is not in the snapshot, was not hidden, and is gone from
      the channel; every earlier item is either still there or expired. */
  lemma UpdateEntriesExpired(c: Channel, entries: seq<Bag>, now: int, n: int, digest: string -> string)
    requires Valid(c)
    requires UpdateEntries(c, entries, now, n, digest).Ok?
    ensures var r := UpdateEntries(c, entries, now, n, digest).value;
      && (forall x :: x in r.expired ==>
            && x.id in Ids(c.items)
            && x.id !in SeenIds(entries, c.url, digest)
            && !IsHidden(x)
            && x.id !in Ids(r.channel.items))
      && (forall id :: id in Ids(c.items) ==> id in Ids(r.channel.items) || id in Ids(r.expired))
  {
    var r := UpdateEntries(c, entries, now, n, digest).value;
    if |entries| > 0 {
      var st := Stage(c, entries, now, n, digest).value;
      var seen := SeenIds(entries, c.url, digest);
      StageFacts(c, entries, now, n, digest);
      var (kept, gone) := Expiry.Expire(st.items, st.seen);
      assert r.channel.items == kept && r.expired == gone;
      forall x | x in gone
        ensures x.id in Ids(c.items) && x.id !in Ids(kept)
      {
        IdsMember(st.items, x.id);
        assert x.id in Ids(c.items) + NewIds(seen, Ids(c.items));
        IdsMember(kept, x.id);
      }
      forall id | id in Ids(c.items)
        ensures id in Ids(kept) || id in Ids(gone)
      {
        assert id in Ids(c.items) + NewIds(seen, Ids(c.items));
        IdsMember(st.items, id);
        var x :| x in st.items && x.id == id;
        IdsMember(kept, id);
        IdsMember(gone, id);
      }
    }
  }

  /** Some item of `items` filed under `id` is hidden. */
  predicate HiddenBefore(items: seq<Item>, id: string)
  {
    exists y :: y in items && y.id == id && IsHidden(y)
  }

  /** UpdateEntries on a non-empty snapshot, taken apart: the entry
      loop's pass `p`, the numbered items `out` and the numbered record
      `info`, and the expiry step over them. */
  lemma Parts(c: Channel, entries: seq<Bag>, now: int, n: int, digest: string -> string)
    returns (p: Pass, out: seq<Item>, info: Record)
    requires Valid(c)
    requires |entries| > 0
    requires UpdateEntries(c, entries, now, n, digest).Ok?
    ensures Loop(c, entries, now, n, digest) == Ok(p)
    ensures p.seen == SeenIds(entries, c.url, digest)
    ensures p.created == NewIds(SeenIds(entries, c.url, digest), Ids(c.items))
    ensures Distinct(p.created)
    ensures Orders.AssignOrders(p.items, p.created, Stamp(c.info, now)) == Ok((out, info))
    ensures UniqueIds(out) && Sortable(out, false)
    ensures UpdateEntries(c, entries, now, n, digest).value.channel.items == Expiry.Expire(out, p.seen).0
    ensures UpdateEntries(c, entries, now, n, digest).value.expired == Expiry.Expire(out, p.seen).1
    ensures UpdateEntries(c, entries, now, n, digest).value.channel.info == info
  {
    p := Loop(c, entries, now, n, digest).value;
    LoopFacts(c, entries, now, n, digest);
    var numbered := Orders.AssignOrders(p.items, p.created, Stamp(c.info, now)).value;
    out, info := numbered.0, numbered.1;
  }

  /** The entry loop's items line up with the channel's: the same ids at
      the channel's positions, then created ids only. */
  lemma LoopShape(c: Channel, entries: seq<Bag>, now: int, n: int, digest: string -> string, p: Pass)
    requires Valid(c)
    requires Loop(c, entries, now, n, digest) == Ok(p)
    ensures UniqueIds(p.items)
    ensures |c.items| <= |p.items|
    ensures forall i :: 0 <= i < |c.items| ==> p.items[i].id == c.items[i].id
    ensures forall i :: |c.items| <= i < |p.items| ==> p.items[i].id in p.created
  {
    LoopFacts(c, entries, now, n, digest);
    forall i | |c.items| <= i < |p.items|
      ensures p.items[i].id in p.created
    {
      assert Ids(p.items)[i] == p.items[i].id;
      assert (Ids(c.items) + p.created)[i] == p.created[i - |c.items|];
    }
  }

  /** For entries without an order key the loop leaves every earlier
      item's order as it was. */
  lemma LoopOrder(c: Channel, entries: seq<Bag>, now: int, n: int, digest: string -> string, p: Pass)
    requires Valid(c)
    requires Lacks(entries, "order")
    requires Loop(c, entries, now, n, digest) == Ok(p)
    ensures forall i :: 0 <= i < |c.items| <= |p.items| ==> SameAt(p.items[i].rec, c.items[i].rec, "order")
  {
    var w := Clock(Get(c.info, "updated"), now);
    AbsorbAllKeeps(Pass(c.items, [], []), entries, c.url, w, n, digest, "order");
  }

  /** For entries without a hidden key the loop hides exactly what was
      hidden and what sits in `feed_items` past the first-sight limit. */
  lemma LoopHiding(c: Channel, entries: seq<Bag>, now: int, n: int, digest: string -> string, p: Pass)
    requires Valid(c)
    requires Lacks(entries, "hidden")
    requires Loop(c, entries, now, n, digest) == Ok(p)
    ensures forall i :: 0 <= i < |p.items| ==>
              (IsHidden(p.items[i]) <==>
                (i < |c.items| && IsHidden(c.items[i])) || HiddenAt(Clock(Get(c.info, "updated"), now), n, p.seen, 0, p.items[i].id))
  {
    var w := Clock(Get(c.info, "updated"), now);
    AbsorbAllHiding(Pass(c.items, [], []), entries, c.url, w, n, digest);
  }

  /** Hiding through the order and expiry steps: a kept item is hidden
      exactly when the loop's item at its place is. */
  lemma HiddenOf(before: seq<Item>, items: seq<Item>, created: seq<string>, info: Record,
                 out: seq<Item>, oinfo: Record, pseen: seq<string>, w: Window, n: int, seen: seq<string>, x: Item)
    requires Distinct(created)
    requires Orders.AssignOrders(items, created, info) == Ok((out, oinfo))
    requires UniqueIds(out) && Sortable(out, false)
    requires x in Expiry.Expire(out, pseen).0
    requires UniqueIds(items)
    requires |before| <= |items|
    requires forall i :: 0 <= i < |before| ==> items[i].id == before[i].id
    requires forall i :: 0 <= i < |items| ==>
               (IsHidden(items[i]) <==> (i < |before| && IsHidden(before[i])) || HiddenAt(w, n, pseen, 0, items[i].id))
    requires seen == pseen
    ensures IsHidden(x) <==> HiddenBefore(before, x.id) || HiddenAt(w, n, seen, 0, x.id)
  {
    KeptIn(out, pseen, x);
    HiddenIn(before, items, created, info, out, w, n, seen, x);
  }

  lemma HiddenIn(before: seq<Item>, items: seq<Item>, created: seq<string>, info: Record,
                 out: seq<Item>, w: Window, n: int, seen: seq<string>, x: Item)
    requires Distinct(created)
    requires Orders.AssignOrders(items, created, info).Ok?
    requires out == Orders.AssignOrders(items, created, info).value.0
    requires x in out
    requires UniqueIds(items)
    requires |before| <= |items|
    requires forall i :: 0 <= i < |before| ==> items[i].id == before[i].id
    requires forall i :: 0 <= i < |items| ==>
               (IsHidden(items[i]) <==> (i < |before| && IsHidden(before[i])) || HiddenAt(w, n, seen, 0, items[i].id))
    ensures IsHidden(x) <==> HiddenBefore(before, x.id) || HiddenAt(w, n, seen, 0, x.id)
  {
    var i :| 0 <= i < |out| && out[i] == x;
    AssignedKeeps(items, created, info, out, i, "hidden");
    assert IsHidden(x) <==> IsHidden(items[i]);
    BeforeAt(before, items, i);
  }

  /** The order step keeps every key but `order` of the item at `i`. */
  lemma AssignedKeeps(items: seq<Item>, created: seq<string>, info: Record, out: seq<Item>, i: nat, k: string)
    requires Distinct(created)
    requires Orders.AssignOrders(items, created, info).Ok?
    requires out == Orders.AssignOrders(items, created, info).value.0
    requires i < |out| && k != "order"
    ensures i < |items| && out[i].id == items[i].id && SameAt(items[i].rec, out[i].rec, k)
  {
    OrderFacts(items, created, info);
  }

  /** With ids lined up and unique, the channel's item hidden under the
      id of the loop's i-th item can only be the one at `i`. */
  lemma BeforeAt(before: seq<Item>, items: seq<Item>, i: nat)
    requires UniqueIds(items)
    requires |before| <= |items| && i < |items|
    requires forall j :: 0 <= j < |before| ==> items[j].id == before[j].id
    ensures HiddenBefore(before, items[i].id) <==> i < |before| && IsHidden(before[i])
  {
    if HiddenBefore(before, items[i].id) {
      var y :| y in before && y.id == items[i].id && IsHidden(y);
      var j :| 0 <= j < |before| && before[j] == y;
      assert items[j].id == items[i].id;
    }
    if i < |before| && IsHidden(before[i]) {
      assert before[i] in before;
    }
  }

  /** What the expiry step keeps, it had. */
  lemma KeptIn(out: seq<Item>, seen: seq<string>, x: Item)
    requires UniqueIds(out) && Sortable(out, false)
    requires x in Expiry.Expire(out, seen).0
    ensures x in out
  {
  }

  /** Orders through the order and expiry steps, for an item not
      created: it keeps the order of the channel's item at its place. */
  lemma OrderKept(before: seq<Item>, items: seq<Item>, pcreated: seq<string>, info: Record,
                  out: seq<Item>, oinfo: Record, pseen: seq<string>, created: seq<string>, x: Item)
    requires Distinct(pcreated)
    requires Orders.AssignOrders(items, pcreated, info) == Ok((out, oinfo))
    requires UniqueIds(out) && Sortable(out, false)
    requires x in Expiry.Expire(out, pseen).0
    requires |before| <= |items|
    requires forall i :: 0 <= i < |before| ==> items[i].id == before[i].id
    requires forall i :: |before| <= i < |items| ==> items[i].id in pcreated
    requires forall i :: 0 <= i < |before| <= |items| ==> SameAt(items[i].rec, before[i].rec, "order")
    requires created == pcreated
    requires x.id !in created
    ensures exists y :: y in before && y.id == x.id && SameAt(x.rec, y.rec, "order")
  {
    KeptIn(out, pseen, x);
    var i :| 0 <= i < |out| && out[i] == x;
    AssignSkips(items, created, info, i);
    assert before[i] in before;
  }

  /** Orders through the order and expiry steps, for a created item: the
      j-th of k created ids gets the counter plus k - j. */
  lemma OrderNew(items: seq<Item>, pcreated: seq<string>, info: Record,
                 out: seq<Item>, oinfo: Record, pseen: seq<string>, cinfo: Record, top: nat, created: seq<string>, x: Item)
    requires Distinct(pcreated)
    requires Orders.AssignOrders(items, pcreated, info) == Ok((out, oinfo))
    requires UniqueIds(out) && Sortable(out, false)
    requires x in Expiry.Expire(out, pseen).0
    requires Orders.Counter(info) == Orders.Counter(cinfo)
    requires Orders.Counter(cinfo) == Some(top)
    requires created == pcreated
    ensures forall j :: 0 <= j < |created| && created[j] == x.id ==>
              Get(x.rec, "order") == Orders.OrderValue(top + |created| - j)
  {
    KeptIn(out, pseen, x);
    OrderNewIn(items, created, info, out, cinfo, top, x);
  }

  lemma OrderNewIn(items: seq<Item>, created: seq<string>, info: Record, out: seq<Item>,
                   cinfo: Record, top: nat, x: Item)
    requires Distinct(created)
    requires Orders.AssignOrders(items, created, info).Ok?
    requires out == Orders.AssignOrders(items, created, info).value.0
    requires Orders.Counter(info) == Orders.Counter(cinfo)
    requires Orders.Counter(cinfo) == Some(top)
    requires x in out
    ensures forall j :: 0 <= j < |created| && created[j] == x.id ==>
              Get(x.rec, "order") == Orders.OrderValue(top + |created| - j)
  {
    var i :| 0 <= i < |out| && out[i] == x;
    forall j | 0 <= j < |created| && created[j] == x.id
      ensures Get(x.rec, "order") == Orders.OrderValue(top + |created| - j)
    {
      AssignedAt(items, created, info, i, j, top, |created|, out);
    }
  }

  /** Which items are hidden after an update whose entries do not carry
      a hidden key: those hidden before, and those whose id sits in
      `feed_items` past the first-sight limit. Positions up to the limit
      are not hidden by the update, and nothing is when the channel had
      been updated before. */
  lemma UpdateEntriesHiding(c: Channel, entries: seq<Bag>, now: int, n: int, digest: string -> string, x: Item)
    requires Valid(c)
    requires Lacks(entries, "hidden")
    requires UpdateEntries(c, entries, now, n, digest).Ok?
    requires x in UpdateEntries(c, entries, now, n, digest).value.channel.items
    ensures IsHidden(x) <==>
              HiddenBefore(c.items, x.id)
              || HiddenAt(Clock(Get(c.info, "updated"), now), n, SeenIds(entries, c.url, digest), 0, x.id)
  {
    if |entries| == 0 {
      assert SeenIds(entries, c.url, digest) == [];
      if IsHidden(x) {
        assert HiddenBefore(c.items, x.id);
      }
    } else {
      var p, out, info := Parts(c, entries, now, n, digest);
      LoopShape(c, entries, now, n, digest, p);
      LoopHiding(c, entries, now, n, digest, p);
      HiddenOf(c.items, p.items, p.created, Stamp(c.info, now), out, info, p.seen,
               Clock(Get(c.info, "updated"), now), n, SeenIds(entries, c.url, digest), x);
    }
  }

  /** The counter after an update: unchanged when nothing was created,
      otherwise exactly as many higher as items were created. */
  lemma UpdateEntriesCounter(c: Channel, entries: seq<Bag>, now: int, n: int, digest: string -> string)
    requires Valid(c)
    requires UpdateEntries(c, entries, now, n, digest).Ok?
    ensures var r := UpdateEntries(c, entries, now, n, digest).value;
      var k := |NewIds(SeenIds(entries, c.url, digest), Ids(c.items))|;
      && (k == 0 ==> Orders.Counter(r.channel.info) == Orders.Counter(c.info))
      && (k > 0 ==> Orders.Counter(c.info).Some?
                    && Get(r.channel.info, "next_order") == Orders.OrderValue(Orders.Counter(c.info).value + k))
  {
    var k := |NewIds(SeenIds(entries, c.url, digest), Ids(c.items))|;
    if Orders.Counter(c.info).Some? {
      CounterAt(c, entries, now, n, digest, Orders.Counter(c.info).value, k);
    } else {
      CounterAt(c, entries, now, n, digest, 0, k);
    }
  }

  /** UpdateEntriesCounter with the counter and the number created named
      by the caller. */
  lemma CounterAt(c: Channel, entries: seq<Bag>, now: int, n: int, digest: string -> string, top: nat, k: nat)
    requires Valid(c)
    requires UpdateEntries(c, entries, now, n, digest).Ok?
    requires Orders.Counter(c.info).Some? ==> Orders.Counter(c.info).value == top
    requires k == |NewIds(SeenIds(entries, c.url, digest), Ids(c.items))|
    ensures var r := UpdateEntries(c, entries, now, n, digest).value;
      && (k == 0 ==> Orders.Counter(r.channel.info) == Orders.Counter(c.info))
      && (k > 0 ==> Orders.Counter(c.info).Some? && Get(r.channel.info, "next_order") == Orders.OrderValue(top + k))
  {
    if |entries| > 0 {
      var p, out, info := Parts(c, entries, now, n, digest);
      CounterStamp(c.info, now);
      AssignCounter(p.items, p.created, Stamp(c.info, now), out, info, c.info, top, k);
    }
  }

  /** Orders after an update whose entries carry no order key: an item
      that was not created keeps the order the channel's item under its
      id had. */
  lemma UpdateEntriesOrders(c: Channel, entries: seq<Bag>, now: int, n: int, digest: string -> string, x: Item)
    requires Valid(c)
    requires Lacks(entries, "order")
    requires UpdateEntries(c, entries, now, n, digest).Ok?
    requires x in UpdateEntries(c, entries, now, n, digest).value.channel.items
    requires x.id !in NewIds(SeenIds(entries, c.url, digest), Ids(c.items))
    ensures exists y :: y in c.items && y.id == x.id && SameAt(x.rec, y.rec, "order")
  {
    if |entries| == 0 {
      assert x in c.items;
    } else {
      var p, out, info := Parts(c, entries, now, n, digest);
      LoopShape(c, entries, now, n, digest, p);
      LoopOrder(c, entries, now, n, digest, p);
      OrderKept(c.items, p.items, p.created, Stamp(c.info, now), out, info, p.seen,
                NewIds(SeenIds(entries, c.url, digest), Ids(c.items)), x);
    }
  }

  /** Orders of the created items, for entries that carry no order key:
      with counter `top`, the j-th of the k created ids, in feed order,
      gets `top + k - j`. */
  lemma UpdateEntriesNewOrders(c: Channel, entries: seq<Bag>, now: int, n: int, digest: string -> string,
                               x: Item, top: nat)
    requires Valid(c)
    requires Orders.Counter(c.info) == Some(top)
    requires UpdateEntries(c, entries, now, n, digest).Ok?
    requires x in UpdateEntries(c, entries, now, n, digest).value.channel.items
    ensures var created := NewIds(SeenIds(entries, c.url, digest), Ids(c.items));
      forall j :: 0 <= j < |created| && created[j] == x.id ==>
        Get(x.rec, "order") == Orders.OrderValue(top + |created| - j)
  {
    if |entries| == 0 {
      assert SeenIds(entries, c.url, digest) == [];
    } else {
      var p, out, info := Parts(c, entries, now, n, digest);
      CounterStamp(c.info, now);
      OrderNew(p.items, p.created, Stamp(c.info, now), out, info, p.seen, c.info, top,
               NewIds(SeenIds(entries, c.url, digest), Ids(c.items)), x);
    }
  }

  /** The number an item's order reads as, when it is a decimal string. */
  function OrderOf(it: Item): Option<nat>
  {
    var v := Get(it.rec, "order");
    if v.String? then Decimal.Parse(v.s) else None
  }

  /** Every item has a decimal order no larger than `top`, and no two
      items share one. */
  predicate Numbered(items: seq<Item>, top: nat)
  {
    && (forall x :: x in items ==> OrderOf(x).Some? && OrderOf(x).value <= top)
    && (forall x, y :: x in items && y in items && x.id != y.id ==> OrderOf(x) != OrderOf(y))
  }

  lemma OrderOfValue(x: Item, m: nat)
    requires Get(x.rec, "order") == Orders.OrderValue(m)
    ensures OrderOf(x) == Some(m)
  {
    Decimal.ParseShow(m);
  }

  /** Where an item's order comes from: an earlier item filed under the
      same id, or the j-th of the created ids. */
  predicate OrderSource(x: Item, before: seq<Item>, created: seq<string>, top: nat)
  {
    && (x.id !in created ==> exists x0 :: x0 in before && x0.id == x.id && OrderOf(x) == OrderOf(x0))
    && (x.id in created ==> exists j :: 0 <= j < |created| && created[j] == x.id
                                        && OrderOf(x) == Some(top + |created| - j))
  }

  /** An item's order after an update, as a number: an earlier item's,
      or the counter plus k - j for the j-th of k created items. */
  lemma OrderAfter(c: Channel, entries: seq<Bag>, now: int, n: int, digest: string -> string, top: nat, x: Item)
    requires Valid(c)
    requires Lacks(entries, "order")
    requires Orders.Counter(c.info) == Some(top)
    requires UpdateEntries(c, entries, now, n, digest).Ok?
    requires x in UpdateEntries(c, entries, now, n, digest).value.channel.items
    ensures OrderSource(x, c.items, NewIds(SeenIds(entries, c.url, digest), Ids(c.items)), top)
  {
    UpdateEntriesNewOrders(c, entries, now, n, digest, x, top);
    if x.id !in NewIds(SeenIds(entries, c.url, digest), Ids(c.items)) {
      UpdateEntriesOrders(c, entries, now, n, digest, x);
    }
    OrderSourceOf(x, c.items, NewIds(SeenIds(entries, c.url, digest), Ids(c.items)), top);
  }

  /** The two order facts, read as numbers. */
  lemma OrderSourceOf(x: Item, before: seq<Item>, created: seq<string>, top: nat)
    requires x.id !in created ==> exists y :: y in before && y.id == x.id && SameAt(x.rec, y.rec, "order")
    requires forall j :: 0 <= j < |created| && created[j] == x.id ==>
               Get(x.rec, "order") == Orders.OrderValue(top + |created| - j)
    ensures OrderSource(x, before, created, top)
  {
    if x.id !in created {
      var y :| y in before && y.id == x.id && SameAt(x.rec, y.rec, "order");
      assert OrderOf(x) == OrderOf(y);
    } else {
      var j :| 0 <= j < |created| && created[j] == x.id;
      OrderOfValue(x, top + |created| - j);
    }
  }

  /** Items whose orders come from distinct earlier items or distinct
      created positions are numbered up to the counter plus k. */
  lemma NumberedFrom(before: seq<Item>, created: seq<string>, top: nat, items: seq<Item>)
    requires Numbered(before, top)
    requires forall x :: x in items ==> OrderSource(x, before, created, top)
    ensures Numbered(items, top + |created|)
  {
    forall x | x in items
      ensures OrderOf(x).Some? && OrderOf(x).value <= top + |created|
    {
      assert OrderSource(x, before, created, top);
      if x.id !in created {
        var x0 :| x0 in before && x0.id == x.id && OrderOf(x) == OrderOf(x0);
      }
    }
    forall x, y | x in items && y in items && x.id != y.id
      ensures OrderOf(x) != OrderOf(y)
    {
      assert OrderSource(x, before, created, top) && OrderSource(y, before, created, top);
      if x.id !in created {
        var x0 :| x0 in before && x0.id == x.id && OrderOf(x) == OrderOf(x0);
      }
      if y.id !in created {
        var y0 :| y0 in before && y0.id == y.id && OrderOf(y) == OrderOf(y0);
      }
    }
  }

  /** The counter after an update, as a number. */
  lemma CounterAfter(c: Channel, entries: seq<Bag>, now: int, n: int, digest: string -> string, top: nat)
    requires Valid(c)
    requires Orders.Counter(c.info) == Some(top)
    requires UpdateEntries(c, entries, now, n, digest).Ok?
    ensures Orders.Counter(UpdateEntries(c, entries, now, n, digest).value.channel.info)
              == Some(top + |NewIds(SeenIds(entries, c.url, digest), Ids(c.items))|)
  {
    var k := |NewIds(SeenIds(entries, c.url, digest), Ids(c.items))|;
    CounterAt(c, entries, now, n, digest, top, k);
    if k > 0 {
      CounterOfValue(UpdateEntries(c, entries, now, n, digest).value.channel.info, top + k);
    }
  }

  lemma CounterOfValue(info: Record, m: nat)
    requires Get(info, "next_order") == Orders.OrderValue(m)
    ensures Orders.Counter(info) == Some(m)
  {
    Decimal.ParseShow(m);
  }

  /** Order numbers stay unique: if every item had a distinct decimal
      order no larger than the counter, the same holds after an update
      whose entries carry no order key, and the counter never goes down. */
  lemma UpdateEntriesNumbered(c: Channel, entries: seq<Bag>, now: int, n: int, digest: string -> string, top: nat)
    requires Valid(c)
    requires Lacks(entries, "order")
    requires Orders.Counter(c.info) == Some(top) && Numbered(c.items, top)
    requires UpdateEntries(c, entries, now, n, digest).Ok?
    ensures var r := UpdateEntries(c, entries, now, n, digest).value;
      && Orders.Counter(r.channel.info).Some?
      && top <= Orders.Counter(r.channel.info).value
      && Numbered(r.channel.items, Orders.Counter(r.channel.info).value)
  {
    var r := UpdateEntries(c, entries, now, n, digest).value;
    var created := NewIds(SeenIds(entries, c.url, digest), Ids(c.items));
    CounterAfter(c, entries, now, n, digest, top);
    forall x | x in r.channel.items
      ensures OrderSource(x, c.items, created, top)
    {
      OrderAfter(c, entries, now, n, digest, top, x);
    }
    NumberedFrom(c.items, created, top, r.channel.items);
  }
}

=== FILE: values.dfy ===
/**
 * The typed values the cache keeps for every channel and item, and the
 * shapes of the values the feed parser hands over.
 */
module Values {
  import opened Wrappers

  /** A cached value: the cache store knows STRING, DATE and NULL keys.
      Dates are seconds, the number `time.mktime` makes of a time tuple. */
  datatype Value = String(s: string) | Date(t: int) | Null

  /** The cached record of one channel or item: key to typed value.
      A key that is present with `Null` differs from an absent key:
      `has_key` is true for the former. */
  type Record = map<string, Value>

  /** The value under `k`, reading an absent key as `Null`. */
  function Get(r: Record, k: string): (v: Value)
    ensures k !in r ==> v == Null
    ensures k in r ==> v == r[k]
  {
    if k in r then r[k] else Null
  }

  /** An optional string in force only when it is non-empty: Python's
      `x or None` on a string, as for an etag or a filter pattern. */
  function NonEmpty(o: Option<string>): (r: Option<string>)
    ensures r.Some? <==> o.Some? && o.value != ""
    ensures r.Some? ==> r == o
  {
    if o.Some? && o.value != "" then o else None
  }

  /** The text of a value where the source expects a string; a value of
      another type reads as the empty string. */
  function TextOf(v: Value): string
  {
    if v.String? then v.s else ""
  }

  /** The shape of one value in a parsed feed or entry. */
  datatype Shape =
    | Text(text: string)                  // a string
    | Stamp(t: int)                       // a parsed time tuple
    | NoValue                             // None
    | Dict(sub: map<string, string>)      // a nested dictionary (source, image, *_detail)
    | Parts(values: seq<string>)          // a content list: the `value` of each part
    | Other                               // anything else (lists of links, booleans, ...)

  /** One key of a parsed feed or entry. */
  datatype Field = Field(key: string, value: Shape)

  /** A parsed feed or entry: its keys in the parser's order. */
  type Bag = seq<Field>

  /** The value of the first field named `k`, if any. */
  function Lookup(bag: Bag, k: string): (r: Option<Shape>)
    ensures r.None? <==> forall i :: 0 <= i < |bag| ==> bag[i].key != k
    ensures r.Some? ==> exists i :: 0 <= i < |bag| && bag[i] == Field(k, r.value)
  {
    if |bag| == 0 then None
    else if bag[0].key == k then Some(bag[0].value)
    else
      var r := Lookup(bag[1..], k);
      assert forall i :: 1 <= i < |bag| ==> bag[i] == bag[1..][i - 1];
      r
  }

  /** `has_key` on a parsed feed or entry. */
  predicate HasKey(bag: Bag, k: string)
  {
    Lookup(bag, k).Some?
  }

  predicate EndsWith(s: string, suffix: string)
  {
    |suffix| <= |s| && s[|s| - |suffix|..] == suffix
  }

  /** The first of `keys` that the record holds with a non-NULL value, as text. */
  function FirstText(rec: Record, keys: seq<string>): (s: string)
    ensures (forall i :: 0 <= i < |keys| ==> Get(rec, keys[i]) == Null) ==> s == ""
    ensures forall i :: 0 <= i < |keys| && Get(rec, keys[i]) != Null
                        && (forall j :: 0 <= j < i ==> Get(rec, keys[j]) == Null)
                        ==> s == TextOf(rec[keys[i]])
  {
    if |keys| == 0 then ""
    else if keys[0] in rec && rec[keys[0]] != Null then TextOf(rec[keys[0]])
    else
      assert forall i :: 1 <= i < |keys| ==> keys[i] == keys[1..][i - 1];
      FirstText(rec, keys[1..])
  }
}

=== FILE: wrappers.dfy ===
/** Failure-compatible wrappers used throughout the model. */
module Wrappers {

  /** A value that may be absent: Python's `None` where the source allows it. */
  datatype Option<+T> = None | Some(value: T)

  /** The outcome of an operation that the source aborts with an exception. */
  datatype Result<+T> = Ok(value: T) | Err(error: string) {
    predicate IsFailure() { Err? }

    function PropagateFailure<U>(): Result<U>
      requires Err?
    {
      Err(error)
    }

    function Extract(): T
      requires Ok?
    {
      value
    }
  }
}
